=== FILE: README.md ===
# Artifact vault: catalog builder and filter rules in Dafny

The artifact vault is a static site that shows HTML artifacts. It has two halves, and this project models the logic of both.

**The build script** (`scripts/generate-catalog.js`):

- walks `public/artifacts`;
- finds every `meta.json`;
- checks that the four required fields are truthy, then checks that `index.html` sits beside the record;
- gives each accepted record an `id` and a public `path`;
- collects one error per rejected record;
- sorts the catalog newest first;
- writes it, and exits with 1 when any record was rejected.

**The browser side**:

- `src/App.jsx` filters the catalog by search text, by function and by selected tags, and lists all tags.
- `src/components/TagFilter.jsx` counts and ranks tags, searches them, shows the first six, and edits the selection.
- `src/components/FunctionFilter.jsx` toggles the selected function and labels its trigger.

Modules, one per concern:

- `Wrappers`: `Option` and `Result`.
- `Seqs`: order-preserving filter, subsequence, occurrence count, de-duplication, removal.
- `Strings`: ASCII lower-casing, substring search against a declarative reference, ordinal string order, and joining and splitting paths.
- `Sorting`: a stable insertion sort over any strict weak order. It comes with sortedness, stability and uniqueness lemmas. This is `Array.prototype.sort`, which section 22.1.3.27 of ECMA-262, 10th edition, requires to be stable.
- `Json`: parsed JSON values and JavaScript truthiness.
- `FileTree`: the directory tree, and `scanDirectory` against a recursive reference definition.
- `CatalogBuilder`: validation, collection, the newest-first sort and the exit code.
- `App`, `TagFilter`, `FunctionFilter`: the browser rules.
- `ObjectCounts`: `tagCounts` as JavaScript actually evaluates it (see Findings).
- `CatalogExample`, `AppExample`: worked examples on fixed inputs.

Parameters stand in for the environment:

- `decode: string -> Option<Value>` is `JSON.parse`; `None` is a throw.
- `date: Value -> int` is the timestamp `new Date(createdAt)` denotes.
- `root: Option<seq<Node>>` is the artifacts directory; `None` means it does not exist.

Three behaviours of the code that the model keeps as written:

- `tagCounts` counts tag occurrences, so a tag listed twice on one artifact counts twice. It does not count artifacts.
- A record's `tags` is never defaulted. The builder copies the record as it is, and the browser reads `a.tags` unguarded, so `Artifact.tags` is a required field.
- A record that parses to `null` is its own error kind, `NullRecord`: reading `null[field]` throws a `TypeError`. A record that parses to any other non-object (array, string, number, boolean) is reported as missing all four fields.

## Model

| member | source | states |
|---|---|---|
| FileTree.ScanExact | scripts/generate-catalog.js:15-32 | a file is found by the scan exactly when following its directory path through the tree reaches a listing with a file named `meta.json` of that text; every depth is searched and other files are skipped |
| FileTree.HoldsSegments | scripts/generate-catalog.js:62-64 | in a tree whose names are non-empty and slash-free, every discovered directory path consists of such segments |
| Strings.SplitJoin | scripts/generate-catalog.js:64 | splitting a `/`-joined path of slash-free non-empty segments gives the segments back |
| Strings.JoinInjective | scripts/generate-catalog.js:64 | two different directory paths never join to the same id |
| CatalogBuilder.MissingFields | scripts/generate-catalog.js:56 | the reported fields are exactly the required fields that are absent or falsy, listed in `REQUIRED_FIELDS` order; the list is empty exactly when the record is complete |
| CatalogBuilder.NonObjectMissesAll | scripts/generate-catalog.js:56 | a record that is not an object is missing all four fields |
| CatalogBuilder.Message | scripts/generate-catalog.js:56-70 | a field failure reads "Missing required fields: " followed by the missing fields joined with ", "; a missing page reads "Missing index.html"; parse and null failures carry the host's message |
| CatalogBuilder.MessageNamesFields | scripts/generate-catalog.js:56-58 | the message names the fields: two lists of required field names give the same message only when they are the same list |
| Strings.JoinSepInjective | scripts/generate-catalog.js:58 | joining with a separator whose first character occurs in no part is injective |
| CatalogBuilder.RootRecordLocation | scripts/generate-catalog.js:62-75 | a `meta.json` directly in the artifacts directory gets id `""` and path `/artifacts//index.html` |
| CatalogBuilder.IdRecoversDirectory | scripts/generate-catalog.js:62-64 | a discovered file's id splits back into its directory path relative to the artifacts directory |
| CatalogBuilder.WithLocation | scripts/generate-catalog.js:72-76 | the entry has the record's keys plus `id` and `path`; `id` and `path` override same-named fields; every other field is unchanged |
| CatalogBuilder.Validate | scripts/generate-catalog.js:50-81 | a record fails as unparseable exactly when parsing throws, and as null exactly when it parses to `null`; it is accepted exactly when it parses to an object with every required field truthy and `index.html` beside it, and then the entry is that object located by its directory |
| CatalogBuilder.FieldsCheckedFirst | scripts/generate-catalog.js:56-59 | a parsed non-null record that lacks a field is rejected for its fields even if `index.html` is also missing, and the rejection names exactly the missing fields in `REQUIRED_FIELDS` order |
| CatalogBuilder.MissingPageOnlyWhenComplete | scripts/generate-catalog.js:66-70 | "Missing index.html" is reported exactly for complete records with no `index.html` beside them |
| CatalogBuilder.AcceptedComplete | scripts/generate-catalog.js:56-59 | an accepted entry carries every required field with a truthy value |
| CatalogBuilder.Collect | scripts/generate-catalog.js:49-82 | every discovered record becomes exactly one entry or exactly one error |
| CatalogBuilder.CollectStep | scripts/generate-catalog.js:49-81 | each file appends its entry to the catalog when it validates, and otherwise appends its error to the error list |
| CatalogBuilder.CollectEntries | scripts/generate-catalog.js:72-76 | the catalog before sorting holds exactly the entries of the records that validate |
| CatalogBuilder.CollectErrors | scripts/generate-catalog.js:78-81 | the error list holds exactly one error per failing record, naming that record's file |
| CatalogBuilder.NewerFirstOrder | scripts/generate-catalog.js:85 | "newer first" is a strict weak order, so the sort is well defined |
| CatalogBuilder.Build | scripts/generate-catalog.js:37-85 | a missing artifacts directory gives no entries and no errors; otherwise entries plus errors equal the discovered files, the catalog is a rearrangement of the accepted entries sorted newest first, and the errors keep discovery order |
| CatalogBuilder.CatalogNewestFirst | scripts/generate-catalog.js:85 | each entry's timestamp is at least that of every later entry |
| CatalogBuilder.SortKeepsSameDateOrder | scripts/generate-catalog.js:85 | sorting keeps the relative order of entries with equal timestamps |
| CatalogBuilder.CatalogStable | scripts/generate-catalog.js:85 | entries with equal `createdAt` appear in the order their files were discovered |
| CatalogBuilder.EntriesWellFormed | scripts/generate-catalog.js:56-76 | every catalog entry comes from a discovered record beside an `index.html`, carries truthy required fields, and has the `id` and `path` its directory determines |
| CatalogBuilder.GoodRecordsCatalogued | scripts/generate-catalog.js:50-76 | every discovered record that parses to a complete object beside its `index.html` appears in the catalog with the id and path its directory determines |
| CatalogBuilder.Run | scripts/generate-catalog.js:37-96 | the catalog is always written; the exit code is 1 exactly when errors were reported and 0 otherwise; no artifacts directory writes `[]` and exits 0 |
| Sorting.SortByStable | scripts/generate-catalog.js:85 | the sort keeps, for every element, the order of the elements tied with it |
| Sorting.StableSortUnique | scripts/generate-catalog.js:85 | any sorted arrangement that keeps every tie class in order is the sort's result |
| CatalogExample.ScanFindsBoth | scripts/generate-catalog.js:15-32 | a tree with two artifact folders yields both records, one with and one without `index.html` |
| CatalogExample.CollectsOneEntryAndOneError | scripts/generate-catalog.js:49-82 | a good record becomes an entry and a record without description becomes the error `proj2/meta.json: Missing required fields: description` |
| CatalogExample.DemoEntryLocation | scripts/generate-catalog.js:72-76 | the entry for `proj1` has id `proj1`, path `/artifacts/proj1/index.html` and keeps its title |
| Strings.ContainsIff | src/App.jsx:41-43 | `includes` holds exactly when the text occurs at some position |
| Strings.LowerIdempotent | src/App.jsx:41-43 | lower-casing twice is lower-casing once |
| App.FilterArtifacts | src/App.jsx:39-52 | the result is an order-preserving subsequence of the catalog holding exactly the artifacts that pass all three clauses, each as many times as the catalog holds it |
| Seqs.FilterMultiset | src/App.jsx:39-52 | `filter` keeps every copy of a passing element and no copy of a failing one |
| App.SearchMeaning | src/App.jsx:41-43 | the search clause holds exactly when the lower-cased search text occurs in the lower-cased title or description |
| App.EmptySearchMatches | src/App.jsx:41-43 | an empty search matches every artifact |
| App.SearchIgnoresCase | src/App.jsx:41-43 | the case of the search text does not change the result |
| App.FilterTwice | src/App.jsx:39-52 | filtering the result again changes nothing |
| App.AddTagNarrows | src/App.jsx:48-50 | selecting one more tag gives a subsequence of the previous result |
| App.ChooseCategoryNarrows | src/App.jsx:45-50 | choosing a function when none is selected gives a subsequence of the previous result |
| App.RemoveChip | src/App.jsx:124 | clicking a chip drops every copy of that tag, keeps every copy of the other tags in order and leaves search text and function alone |
| App.RemoveChipWidens | src/App.jsx:124 | removing a chip gives a supersequence of the previous result |
| App.ResetShowsAll | src/App.jsx:136-140 | after a reset the filter returns the whole catalog in order |
| App.TagOccurrencesMember | src/App.jsx:35 | a tag occurs in the flattened tag lists exactly when some artifact carries it |
| App.AscendingOrder | src/App.jsx:36 | ordinal string order is a strict weak order |
| App.AllTags | src/App.jsx:33-37 | `allTags` holds exactly the tags of some artifact, in strictly ascending order |
| App.AllTagsDistinct | src/App.jsx:33-37 | `allTags` has no repeats |
| TagFilter.TagCounts | src/components/TagFilter.jsx:22-30 | each tag's count is its number of occurrences over all artifacts' tag lists; exactly the occurring tags have an entry |
| TagFilter.RankingOrder | src/components/TagFilter.jsx:33-38 | the comparator, count descending and then string ascending, is a strict weak order |
| TagFilter.RankingTotal | src/components/TagFilter.jsx:35-37 | the comparator orders every pair of different tags |
| TagFilter.SortedTags | src/components/TagFilter.jsx:33-39 | `sortedTags` is a permutation of `allTags`, ordered by the comparator |
| TagFilter.SortedTagsRanked | src/components/TagFilter.jsx:33-39 | on distinct tags, an earlier tag has a higher count, or the same count and a smaller string |
| TagFilter.SortedTagsUnique | src/components/TagFilter.jsx:33-39 | any arrangement of the tags ordered by the comparator is `sortedTags`, so the listing is deterministic |
| TagFilter.SameTiesClass | src/components/TagFilter.jsx:35-37 | under the comparator a tag is tied only with itself |
| TagFilter.FilteredTags | src/components/TagFilter.jsx:41-45 | the picker's list is the order-preserving subsequence of the ranked tags whose lower-cased form contains the lower-cased search text, each kept tag with all its copies |
| TagFilter.FilteredTagsEmptyTerm | src/components/TagFilter.jsx:41-45 | an empty picker search keeps every tag |
| TagFilter.VisibleTags | src/components/TagFilter.jsx:47 | the shown tags are a prefix of the filtered tags: all of them when expanded or searching, otherwise min(6, n) |
| TagFilter.ShowMoreIffHidden | src/components/TagFilter.jsx:114 | the "Show all" button is drawn exactly when some filtered tag is not shown |
| TagFilter.ToggleTag | src/components/TagFilter.jsx:49-55 | toggling drops every copy of a selected tag and appends an unselected one at the end; every copy of the other tags stays, in order |
| TagFilter.ToggleKeepsDistinct | src/components/TagFilter.jsx:49-55 | a selection without repeats has none after a toggle, as the chips' `key={tag}` needs |
| TagFilter.ToggleTwiceRestores | src/components/TagFilter.jsx:49-55 | toggling an unselected tag twice gives back the original selection |
| TagFilter.RemoveTag | src/components/TagFilter.jsx:57-59 | removing drops every copy of the tag and keeps every copy of the others in order |
| TagFilter.RemoveTagKeepsDistinct | src/components/TagFilter.jsx:57-59 | a selection without repeats has none after a removal |
| TagFilter.RemoveTagIdempotent | src/components/TagFilter.jsx:57-59 | removing a tag twice is removing it once |
| TagFilter.RemoveTagMatchesChip | src/components/TagFilter.jsx:57-59 | the picker's removal and the chip row's removal agree |
| AppExample.SearchFindsTitle | src/App.jsx:41-43 | "QUARTER" finds "Quarterly Report" |
| AppExample.TagsCombineWithAnd | src/App.jsx:48 | an artifact tagged finance and charts matches that selection but not finance and hr |
| AppExample.RepeatedTagCountsTwice | src/components/TagFilter.jsx:22-30 | a tag listed twice on one artifact counts 2 |
| AppExample.SevenTagsShowSix | src/components/TagFilter.jsx:47 | seven tags show six with the button; expanded they show all seven |
| FunctionFilter.Select | src/components/FunctionFilter.jsx:20-23 | choosing the selected function or "All Functions" clears the selection; any other choice becomes the selection; the dropdown closes |
| FunctionFilter.SelectAllClears | src/components/FunctionFilter.jsx:44 | "All Functions" clears the selection whatever it was |
| FunctionFilter.SelectTwice | src/components/FunctionFilter.jsx:21 | choosing the same option twice restores the selection exactly when nothing or that option was selected before |
| FunctionFilter.SelectStaysInOptions | src/components/FunctionFilter.jsx:7-57 | choosing among `''` and the five functions keeps the selection among them |
| FunctionFilter.LabelShowsOption | src/components/FunctionFilter.jsx:7-46 | the trigger always shows "All Functions" or one of the five functions |
| FunctionFilter.Label | src/components/FunctionFilter.jsx:33 | the trigger shows the selected function, or "All Functions" when none; it is never blank |
| AppExample.PickTwiceClears | src/components/FunctionFilter.jsx:21-33 | picking "MKT" twice from no selection returns to "All Functions" |
| ObjectCounts.Put | src/components/TagFilter.jsx:26 | assigning a count changes only that key, except that assigning to `__proto__` changes nothing |
| ObjectCounts.PlusOne | src/components/TagFilter.jsx:26 | adding one to the read count gives 1 for a falsy value, adds one to a number, and gives a string for anything else |
| ObjectCounts.OrdinaryTagCounted | src/components/TagFilter.jsx:22-30 | for every tag that is not a name of `Object.prototype`, the object counts occurrences correctly |
| ObjectCounts.ConstructorTagMiscounted | src/components/TagFilter.jsx:22-30 | a tag `constructor` used once reads as the text `function Object() { [native code] }1` |
| ObjectCounts.ProtoTagNeverCounted | src/components/TagFilter.jsx:22-30 | a tag `__proto__` reads as `Object.prototype` however often it occurs |

## Left out

- File system and process effects are not modelled: `existsSync`, `readdirSync`, `statSync`, `readFileSync`, `writeFileSync`, `mkdirSync`, `console` and `process.exit`. The tree is a value, and the result is returned as catalog, errors and exit code.
- The order of a directory listing is taken as given in the tree. The host decides it.
- CatalogBuilder.Run: "the catalog is always written" holds for the trees the model can express. `readdirSync` and `statSync` run outside the per-record `try`, so a dangling symlink, an unreadable directory or a symlink loop aborts the whole run before anything is written; the tree datatype has no such nodes.
- `mkdirSync` creating the missing artifacts directory is an effect, so it is not modelled.
- `JSON.parse` is the parameter `decode`, and the JSON grammar is not modelled. The host's own messages for parse errors and for the `TypeError` on a null record are not modelled either.
- Error lines print the file path relative to the process's working directory. The model reports the path relative to the artifacts directory, as a list of segments.
- `new Date(...)` is not modelled. It involves floating point, the host's date parser and `NaN` for unparseable dates, so the timestamp is the integer parameter `date`. A comparator returning `NaN` is not modelled.
- `localeCompare` and Unicode `toLowerCase` depend on locale and Unicode tables. They are modelled as ordinal comparison of characters and ASCII lower-casing. JavaScript's default `sort()` compares UTF-16 code units; the model compares characters.
- The catalog fetch in `src/App.jsx` is network I/O and is not modelled.
- React plumbing is not modelled: hooks, memoisation, click-outside listeners, and the popovers' open and closed state. The exception is the closing of the function picker after a choice.
- The `<select>` in `src/App.jsx` sets the function directly, so there is nothing to model beyond the function clause.
- The tag picker's trigger text ("N tags selected") needs number formatting and is not modelled.
- Rendering is not part of this model: `src/components/PreviewModal.jsx`, `src/components/ArtifactCard.jsx` and `src/components/ArtifactList.jsx`.
- A record without `tags` is not modelled. The browser assumes `tags` exists, so every `Artifact` carries a tag list.
- App.Artifact: assumes `title`, `description` and `category` are strings and `tags` is a list of strings. The builder accepts any truthy JSON value in these fields, and on other values the browser throws: `toLowerCase` on a numeric title or tag, `forEach` on a string `tags`. Those failures are not modelled.
- Duplicate ids are not handled by the code and not added here. `Strings.JoinInjective` shows that they cannot arise from different directories whose names have no `/`.
- CatalogBuilder.Build: states that the catalog is a rearrangement of the accepted entries (a multiset equality), not the identity of each position. The position-by-position statement is `Sorting.StableSortUnique`.

## Findings

| source | as written | input that shows it | evidently intended | confidence | as-written member | corrected member |
|---|---|---|---|---|---|---|
| src/components/TagFilter.jsx:23-26 | the counts live in an object literal, so `counts[tag]` for a tag the object does not yet own reads the inherited `Object.prototype` member; adding one to that member then concatenates strings, and an assignment to `__proto__` is ignored | one artifact tagged `constructor` shows the count `function Object() { [native code] }1`; a tag `__proto__` reads `Object.prototype` itself, which the tag picker passes to React as a child, so rendering the picker throws while that tag is listed; the ranking comparator then subtracts strings and gets `NaN` | each tag shows the number of its occurrences (an object without a prototype, or a `Map`) | high on the JavaScript semantics; not executed | ObjectCounts.ConstructorTagMiscounted | TagFilter.TagCounts |

=== FILE: app.dfy ===
/** The browser side of src/App.jsx: the list of all tags, the filter over
    the loaded catalog, and the edits the filter bar makes to its inputs. */
module App {
  import opened Seqs
  import opened Strings
  import opened Sorting

  /** An entry of catalog.json as the page reads it. `category` is the
      record's `function` field; `tags` is taken to be present. */
  datatype Artifact = Artifact(id: string, title: string, description: string, category: string, tags: seq<string>)

  /** The three filter inputs: the search box, the function `<select>`
      (`""` is "All Functions"), and the selected tags in selection order. */
  datatype Query = Query(search: string, category: string, tags: seq<string>)

  /** The search clause: the lower-cased title or description contains the
      lower-cased search text. */
  predicate MatchesSearch(a: Artifact, search: string) {
    Contains(Lower(a.title), Lower(search)) || Contains(Lower(a.description), Lower(search))
  }

  /** The function clause: no function selected, or exactly the selected one. */
  predicate MatchesCategory(a: Artifact, category: string) {
    category == "" || a.category == category
  }

  /** The tag clause: the artifact carries every selected tag. */
  predicate MatchesTags(a: Artifact, tags: seq<string>) {
    |tags| == 0 || forall t :: t in tags ==> t in a.tags
  }

  /** The predicate passed to `artifacts.filter`. */
  predicate Keep(a: Artifact, q: Query) {
    MatchesSearch(a, q.search) && MatchesCategory(a, q.category) && MatchesTags(a, q.tags)
  }

  /** `filteredArtifacts`: the artifacts that pass all three clauses, in catalog order. */
  function FilterArtifacts(arts: seq<Artifact>, q: Query): (r: seq<Artifact>)
    ensures forall a :: a in r <==> a in arts && Keep(a, q)
    ensures forall a :: multiset(r)[a] == if Keep(a, q) then multiset(arts)[a] else 0
    ensures IsSubseq(r, arts)
  {
    FilterIsSubseq(arts, a => Keep(a, q));
    FilterMultiset(arts, a => Keep(a, q));
    Filter(arts, a => Keep(a, q))
  }

  /** The search clause is case-insensitive substring search. */
  lemma SearchMeaning(a: Artifact, search: string)
    ensures MatchesSearch(a, search) <==>
      Occurs(Lower(a.title), Lower(search)) || Occurs(Lower(a.description), Lower(search))
  {
    ContainsIff(Lower(a.title), Lower(search));
    ContainsIff(Lower(a.description), Lower(search));
  }

  /** An empty search box matches every artifact. */
  lemma EmptySearchMatches(a: Artifact)
    ensures MatchesSearch(a, "")
  {
    ContainsEmpty(Lower(a.title));
  }

  /** The case of the search text does not matter. */
  lemma SearchIgnoresCase(a: Artifact, search: string)
    ensures MatchesSearch(a, search) == MatchesSearch(a, Lower(search))
  {
    LowerIdempotent(search);
  }

  /** Filtering the filtered list again changes nothing. */
  lemma FilterTwice(arts: seq<Artifact>, q: Query)
    ensures FilterArtifacts(FilterArtifacts(arts, q), q) == FilterArtifacts(arts, q)
  {
    FilterIdempotent(arts, a => Keep(a, q));
  }

  /** Selecting one more tag can only remove artifacts from the result. */
  lemma AddTagNarrows(arts: seq<Artifact>, q: Query, t: string)
    ensures IsSubseq(FilterArtifacts(arts, q.(tags := q.tags + [t])), FilterArtifacts(arts, q))
  {
    var q' := q.(tags := q.tags + [t]);
    forall a | a in arts && Keep(a, q')
      ensures Keep(a, q)
    {
      assert forall u :: u in q.tags ==> u in q'.tags;
    }
    FilterMonotone(arts, a => Keep(a, q'), a => Keep(a, q));
  }

  /** Choosing a function when none was selected can only remove artifacts. */
  lemma ChooseCategoryNarrows(arts: seq<Artifact>, q: Query, category: string)
    requires q.category == ""
    ensures IsSubseq(FilterArtifacts(arts, q.(category := category)), FilterArtifacts(arts, q))
  {
    var q' := q.(category := category);
    FilterMonotone(arts, a => Keep(a, q'), a => Keep(a, q));
  }

  /** Clicking an active tag chip (`prev.filter(t => t !== tag)`): the tag
      leaves the selection, the other tags stay in order, the search text and
      function are untouched. */
  function RemoveChip(q: Query, tag: string): (r: Query)
    ensures r.search == q.search && r.category == q.category
    ensures tag !in r.tags
    ensures forall u :: u != tag ==> (u in r.tags <==> u in q.tags)
    ensures IsSubseq(r.tags, q.tags)
    ensures forall u :: multiset(r.tags)[u] == if u == tag then 0 else multiset(q.tags)[u]
  {
    q.(tags := Remove(q.tags, tag))
  }

  /** Removing a chip can only add artifacts to the result. */
  lemma RemoveChipWidens(arts: seq<Artifact>, q: Query, tag: string)
    ensures IsSubseq(FilterArtifacts(arts, q), FilterArtifacts(arts, RemoveChip(q, tag)))
  {
    FilterMonotone(arts, a => Keep(a, q), a => Keep(a, RemoveChip(q, tag)));
  }

  /** The state after "Reset filters": no search text, no function, no tags. */
  const Cleared := Query("", "", [])

  /** After a reset every artifact is shown, in catalog order. */
  lemma ResetShowsAll(arts: seq<Artifact>)
    ensures FilterArtifacts(arts, Cleared) == arts
  {
    forall a | a in arts
      ensures Keep(a, Cleared)
    {
      EmptySearchMatches(a);
    }
    FilterKeepsAll(arts, a => Keep(a, Cleared));
  }

  /** Every tag of every artifact, in catalog order, repeats included. */
  function TagOccurrences(arts: seq<Artifact>): seq<string>
    decreases |arts|
  {
    if arts == [] then [] else TagOccurrences(arts[..|arts| - 1]) + arts[|arts| - 1].tags
  }

  lemma {:induction false} TagOccurrencesMember(arts: seq<Artifact>, t: string)
    ensures t in TagOccurrences(arts) <==> exists a :: a in arts && t in a.tags
    decreases |arts|
  {
    if arts != [] {
      var init := arts[..|arts| - 1];
      TagOccurrencesMember(init, t);
      assert arts == init + [arts[|arts| - 1]];
    }
  }

  /** Ordinal ascending order on strings, the default `sort()` order. */
  function Ascending(): (string, string) -> bool {
    (a: string, b: string) => StrLt(a, b)
  }

  lemma AscendingOrder()
    ensures StrictWeakOrder(Ascending())
  {
    forall a: string
      ensures !StrLt(a, a)
    {
      StrLtIrreflexive(a);
    }
    forall a: string, b: string, c: string | StrLt(a, b) && StrLt(b, c)
      ensures StrLt(a, c)
    {
      StrLtTransitive(a, b, c);
    }
    forall a: string, b: string, c: string | StrLt(a, c)
      ensures StrLt(a, b) || StrLt(b, c)
    {
      if a != b && !StrLt(a, b) {
        StrLtTotal(a, b);
        StrLtTransitive(b, a, c);
      }
    }
  }

  /** `allTags`: the tags of the catalog put into a `Set` and sorted. */
  function AllTags(arts: seq<Artifact>): (r: seq<string>)
    ensures forall t :: t in r <==> exists a :: a in arts && t in a.tags
    ensures forall i, j :: 0 <= i < j < |r| ==> StrLt(r[i], r[j])
  {
    var distinct := Dedupe(TagOccurrences(arts));
    var r := SortBy(distinct, Ascending());
    AscendingOrder();
    SortBySorted(distinct, Ascending());
    DistinctPermutation(distinct, r);
    forall t
      ensures t in r <==> exists a :: a in arts && t in a.tags
    {
      assert t in r <==> t in multiset(distinct);
      TagOccurrencesMember(arts, t);
    }
    forall i, j | 0 <= i < j < |r|
      ensures StrLt(r[i], r[j])
    {
      assert !Ascending()(r[j], r[i]);
      StrLtTotal(r[i], r[j]);
    }
    r
  }

  /** The tag list has no repeats. */
  lemma AllTagsDistinct(arts: seq<Artifact>)
    ensures Distinct(AllTags(arts))
  {
    var r := AllTags(arts);
    forall i, j | 0 <= i < j < |r|
      ensures r[i] != r[j]
    {
      StrLtIrreflexive(r[i]);
    }
  }
}

=== FILE: app_example.dfy ===
/** Worked examples of the browser-side rules on small fixed inputs. */
module AppExample {
  import opened Seqs
  import opened Strings
  import opened App
  import opened TagFilter
  import opened FunctionFilter

  const Report := Artifact("q3", "Quarterly Report", "Revenue by region", "BD", ["finance", "charts"])

  /** The search is case-insensitive: "QUARTER" finds "Quarterly Report". */
  lemma SearchFindsTitle()
    ensures MatchesSearch(Report, "QUARTER")
  {
    var title := Lower(Report.title);
    assert title[..7] == Lower("QUARTER");
  }

  /** Selected tags combine with AND: the artifact must carry all of them. */
  lemma TagsCombineWithAnd()
    ensures MatchesTags(Report, ["finance", "charts"])
    ensures !MatchesTags(Report, ["finance", "hr"])
  {
    assert "hr" in ["finance", "hr"];
  }

  /** A tag listed twice on one artifact counts twice. */
  lemma RepeatedTagCountsTwice(a: Artifact)
    requires a.tags == ["draft", "draft"]
    ensures Count(TagOccurrences([a]), "draft") == 2
  {
    assert [a][..0] == [];
    assert TagOccurrences([a]) == [] + a.tags;
    var tags := a.tags;
    assert tags[..1] == ["draft"];
    assert tags[..1][..0] == [];
    assert Count(tags[..1], "draft") == 1;
  }

  /** Seven tags and an empty picker search: six are listed and the
      "Show all 7 tags" button is drawn; once expanded all seven are listed. */
  lemma SevenTagsShowSix(filtered: seq<string>)
    requires |filtered| == 7
    ensures |VisibleTags(filtered, false, "")| == 6
    ensures ShowMore(filtered, false, "")
    ensures VisibleTags(filtered, true, "") == filtered
  {
  }

  /** Picking "MKT" twice from no selection returns to no selection, and
      the trigger reads "All Functions" again. */
  lemma PickTwiceClears()
    ensures Select(Picker("", true), "MKT").selected == "MKT"
    ensures Label(Select(Select(Picker("", true), "MKT"), "MKT").selected) == AllFunctions
  {
  }
}

=== FILE: catalog_builder.dfy ===
/** The catalog builder of scripts/generate-catalog.js: validate every
    discovered `meta.json`, turn the good ones into catalog entries with an
    `id` and a public `path`, collect one error per bad one, and order the
    catalog newest first. File reads, `JSON.parse` and date parsing are
    parameters: `decode` stands for `JSON.parse` (None when it throws) and
    `date` for the timestamp `new Date(createdAt)` denotes. */
module CatalogBuilder {
  import opened Wrappers
  import opened Json
  import opened Seqs
  import opened Strings
  import opened Sorting
  import opened FileTree

  /** The fields every record must carry with a truthy value, in reporting order. */
  const RequiredFields: seq<string> := ["title", "function", "description", "createdAt"]

  /** `!meta[field]`: the field is absent or falsy. */
  predicate IsMissing(meta: Value, field: string) {
    match Get(meta, field)
    case None => true
    case Some(v) => Falsy(v)
  }

  /** Every required field is present and truthy. */
  predicate Complete(meta: Value) {
    forall f :: f in RequiredFields ==> !IsMissing(meta, f)
  }

  /** `REQUIRED_FIELDS.filter(field => !meta[field])`. */
  function MissingFields(meta: Value): (r: seq<string>)
    ensures forall f :: f in r <==> f in RequiredFields && IsMissing(meta, f)
    ensures IsSubseq(r, RequiredFields)
    ensures r == [] <==> Complete(meta)
  {
    FilterIsSubseq(RequiredFields, f => IsMissing(meta, f));
    Filter(RequiredFields, f => IsMissing(meta, f))
  }

  /** A record that is not an object lacks every required field. */
  lemma NonObjectMissesAll(meta: Value)
    ensures !meta.Obj? ==> MissingFields(meta) == RequiredFields
  {
    if !meta.Obj? {
      FilterKeepsAll(RequiredFields, f => IsMissing(meta, f));
    }
  }

  /** Why one record was left out of the catalog. */
  datatype Problem =
    | Unparseable                       // JSON.parse threw
    | NullRecord                        // the record is `null`: reading a field threw
    | FieldsMissing(fields: seq<string>)  // "Missing required fields: ..."
    | NoIndexHtml                       // "Missing index.html"

  /** A catalog entry: the record's own fields plus `id` and `path`. */
  datatype Entry = Entry(fields: map<string, Value>)

  /** One reported error: the metadata file's path below the artifacts
      directory, and the problem found in it. */
  datatype BuildError = BuildError(file: seq<string>, problem: Problem)

  const MissingPrefix := "Missing required fields: "

  /** The text of an error message, for the problems whose message the
      script itself writes. */
  function Message(p: Problem): (r: Option<string>)
    ensures p.FieldsMissing? ==> r == Some(MissingPrefix + Join(p.fields, ", "))
    ensures p.NoIndexHtml? ==> r == Some("Missing index.html")
    ensures p.Unparseable? || p.NullRecord? ==> r.None?
  {
    match p
    case FieldsMissing(fs) => Some(MissingPrefix + Join(fs, ", "))
    case NoIndexHtml => Some("Missing index.html")
    case _ => None
  }

  /** No required field name contains a comma, so the ", "-joined list in
      the message can be read back. */
  lemma RequiredFieldsAreSegments()
    ensures forall f :: f in RequiredFields ==> IsSegment(f, ',')
  {
  }

  /** The message names the missing fields: two lists of required field
      names give the same message only when they are the same list. */
  lemma MessageNamesFields(fs: seq<string>, gs: seq<string>)
    requires forall f :: f in fs ==> f in RequiredFields
    requires forall f :: f in gs ==> f in RequiredFields
    ensures Message(FieldsMissing(fs)) == Message(FieldsMissing(gs)) ==> fs == gs
  {
    if Message(FieldsMissing(fs)) == Message(FieldsMissing(gs)) {
      var a := MissingPrefix + Join(fs, ", ");
      var b := MissingPrefix + Join(gs, ", ");
      assert a[|MissingPrefix|..] == Join(fs, ", ");
      assert b[|MissingPrefix|..] == Join(gs, ", ");
      RequiredFieldsAreSegments();
      assert forall k :: 0 <= k < |fs| ==> fs[k] in fs;
      assert forall k :: 0 <= k < |gs| ==> gs[k] in gs;
      assert ", " == [','] + " ";
      JoinSepInjective(fs, gs, ',', " ");
    }
  }

  /** The entry id: the directory path below the artifacts directory, joined with `/`. */
  function Id(dir: seq<string>): string {
    Join(dir, "/")
  }

  /** The public location of an artifact's page. */
  function PublicPath(id: string): string {
    "/artifacts/" + id + "/index.html"
  }

  /** A `meta.json` directly in the artifacts directory gets the empty id,
      and its path has an empty segment. */
  lemma RootRecordLocation()
    ensures Id([]) == ""
    ensures PublicPath(Id([])) == "/artifacts//index.html"
  {
  }

  /** In a tree whose names contain no `/`, the id of a discovered file
      splits back into its directory path, so different directories never
      share an id. */
  lemma IdRecoversDirectory(listing: seq<Node>, m: MetaFile)
    requires WellFormed(listing)
    requires m in Scan(listing)
    ensures Split(Id(m.dir), '/') == m.dir
  {
    ScanExact(listing, m);
    HoldsSegments(listing, m);
    SplitJoin(m.dir, '/');
  }

  /** `{ ...meta, id, path }`: the record's fields, with `id` and `path`
      overriding any fields of the same name. */
  function WithLocation(fields: map<string, Value>, id: string): (e: Entry)
    ensures e.fields.Keys == fields.Keys + {"id", "path"}
    ensures e.fields["id"] == Str(id)
    ensures e.fields["path"] == Str(PublicPath(id))
    ensures forall k :: k in fields && k != "id" && k != "path" ==> e.fields[k] == fields[k]
  {
    Entry(fields["id" := Str(id)]["path" := Str(PublicPath(id))])
  }

  /** A record the script accepts: it parses to an object carrying every
      required field with a truthy value, and `index.html` sits beside it. */
  predicate GoodRecord(m: MetaFile, decode: string -> Option<Value>) {
    && decode(m.text).Some? && decode(m.text).value.Obj?
    && Complete(decode(m.text).value) && m.besideIndex
  }

  /** The per-record body of the `forEach` loop: parse, check the required
      fields, then check for `index.html`, then build the entry. */
  function Validate(m: MetaFile, decode: string -> Option<Value>): (r: Result<Entry, Problem>)
    ensures r == Failure(Unparseable) <==> decode(m.text).None?
    ensures r == Failure(NullRecord) <==> decode(m.text) == Some(Null)
    ensures r.Success? <==> GoodRecord(m, decode)
    ensures GoodRecord(m, decode) ==> r == Success(WithLocation(decode(m.text).value.fields, Id(m.dir)))
  {
    match decode(m.text)
    case None => Failure(Unparseable)
    case Some(meta) =>
      if meta.Null? then Failure(NullRecord)
      else
        var missing := MissingFields(meta);
        NonObjectMissesAll(meta);
        if |missing| > 0 then Failure(FieldsMissing(missing))
        else if !m.besideIndex then Failure(NoIndexHtml)
        else Success(WithLocation(meta.fields, Id(m.dir)))
  }

  /** The field check comes first: a parsed, non-null record that lacks a
      field is rejected for its fields, whatever else is wrong with it, and
      the rejection names exactly the missing fields in `REQUIRED_FIELDS` order. */
  lemma FieldsCheckedFirst(m: MetaFile, decode: string -> Option<Value>)
    ensures var r := Validate(m, decode);
      r.Failure? && r.error.FieldsMissing? ==>
        && decode(m.text).Some? && decode(m.text).value != Null
        && (forall f :: f in r.error.fields <==> f in RequiredFields && IsMissing(decode(m.text).value, f))
        && IsSubseq(r.error.fields, RequiredFields)
    ensures decode(m.text).Some? && decode(m.text).value != Null && !Complete(decode(m.text).value) ==>
      Validate(m, decode).Failure? && Validate(m, decode).error.FieldsMissing?
  {
  }

  /** "Missing index.html" is reported exactly for complete records without
      a page beside them. */
  lemma MissingPageOnlyWhenComplete(m: MetaFile, decode: string -> Option<Value>)
    ensures Validate(m, decode) == Failure(NoIndexHtml) <==>
      decode(m.text).Some? && decode(m.text).value != Null && Complete(decode(m.text).value) && !m.besideIndex
  {
  }

  /** The `forEach` over the discovered files, in order: each file pushes
      either one entry onto the catalog or one error onto the error list. */
  function Collect(files: seq<MetaFile>, decode: string -> Option<Value>): (r: (seq<Entry>, seq<BuildError>))
    ensures |r.0| + |r.1| == |files|
    decreases |files|
  {
    if files == [] then ([], [])
    else
      var init := files[..|files| - 1];
      var f := files[|files| - 1];
      var prev := Collect(init, decode);
      match Validate(f, decode)
      case Success(e) => (prev.0 + [e], prev.1)
      case Failure(p) => (prev.0, prev.1 + [ErrorAt(f, p)])
  }

  /** The error reported for a metadata file. */
  function ErrorAt(f: MetaFile, p: Problem): BuildError {
    BuildError(f.dir + [MetaName], p)
  }

  /** One step of the loop: a file that validates appends its entry, any
      other file appends its error. */
  lemma CollectStep(files: seq<MetaFile>, f: MetaFile, decode: string -> Option<Value>)
    ensures Collect(files + [f], decode).0 ==
      Collect(files, decode).0 + (if Validate(f, decode).Success? then [Validate(f, decode).value] else [])
    ensures Collect(files + [f], decode).1 ==
      Collect(files, decode).1 + (if Validate(f, decode).Failure? then [ErrorAt(f, Validate(f, decode).error)] else [])
  {
    assert (files + [f])[..|files|] == files;
  }

  /** The catalog collects exactly the entries of the files that pass validation. */
  lemma {:induction false} CollectEntries(files: seq<MetaFile>, decode: string -> Option<Value>, e: Entry)
    ensures e in Collect(files, decode).0 <==> exists f :: f in files && Validate(f, decode) == Success(e)
    decreases |files|
  {
    if files != [] {
      var init := files[..|files| - 1];
      var f := files[|files| - 1];
      assert files == init + [f];
      CollectEntries(init, decode, e);
    }
  }

  /** The error list holds exactly one error per file that fails validation, naming the file. */
  lemma {:induction false} CollectErrors(files: seq<MetaFile>, decode: string -> Option<Value>, err: BuildError)
    ensures err in Collect(files, decode).1 <==>
      exists f :: f in files && Validate(f, decode).Failure? && err == ErrorAt(f, Validate(f, decode).error)
    decreases |files|
  {
    if files != [] {
      var init := files[..|files| - 1];
      var f := files[|files| - 1];
      assert files == init + [f];
      CollectErrors(init, decode, err);
    }
  }

  /** The sort key of an entry: the timestamp of its `createdAt`. Entries
      built by `Build` always carry `createdAt`; the other branch only keeps
      the function total. */
  function CreatedKey(e: Entry, date: Value -> int): int {
    if "createdAt" in e.fields then date(e.fields["createdAt"]) else date(Null)
  }

  /** The comparator `(a, b) => new Date(b.createdAt) - new Date(a.createdAt)`:
      `a` goes before `b` when it is newer. */
  function NewerFirst(date: Value -> int): (Entry, Entry) -> bool {
    (a: Entry, b: Entry) => CreatedKey(a, date) > CreatedKey(b, date)
  }

  lemma NewerFirstOrder(date: Value -> int)
    ensures StrictWeakOrder(NewerFirst(date))
  {
  }

  /** Entries of `s` with a given timestamp, in their order in `s`. */
  function SameDate(s: seq<Entry>, date: Value -> int, k: int): seq<Entry> {
    Filter(s, (e: Entry) => CreatedKey(e, date) == k)
  }

  /** What one run of the script computes: the catalog and the errors. */
  datatype BuildResult = BuildResult(catalog: seq<Entry>, errors: seq<BuildError>)

  /** `generateCatalog` up to its writes. `root` is the artifacts directory's
      listing, None when the directory does not exist. */
  function Build(root: Option<seq<Node>>, decode: string -> Option<Value>, date: Value -> int): (r: BuildResult)
    ensures root.None? ==> r.catalog == [] && r.errors == []
    ensures root.Some? ==> |r.catalog| + |r.errors| == |Scan(root.value)|
    ensures root.Some? ==> multiset(r.catalog) == multiset(Collect(Scan(root.value), decode).0)
    ensures root.Some? ==> r.errors == Collect(Scan(root.value), decode).1
    ensures SortedBy(r.catalog, NewerFirst(date))
  {
    match root
    case None => BuildResult([], [])
    case Some(listing) =>
      var collected := Collect(Scan(listing), decode);
      NewerFirstOrder(date);
      SortBySorted(collected.0, NewerFirst(date));
      var sorted := SortBy(collected.0, NewerFirst(date));
      assert |sorted| == |multiset(sorted)| == |multiset(collected.0)| == |collected.0|;
      BuildResult(sorted, collected.1)
  }

  /** The catalog is ordered newest first. */
  lemma CatalogNewestFirst(root: Option<seq<Node>>, decode: string -> Option<Value>, date: Value -> int)
    ensures var c := Build(root, decode, date).catalog;
      forall i, j :: 0 <= i < j < |c| ==> CreatedKey(c[i], date) >= CreatedKey(c[j], date)
  {
    var c := Build(root, decode, date).catalog;
    forall i, j | 0 <= i < j < |c|
      ensures CreatedKey(c[i], date) >= CreatedKey(c[j], date)
    {
      assert !NewerFirst(date)(c[j], c[i]);
    }
  }

  /** Sorting newest first keeps entries with equal timestamps in their order. */
  lemma SortKeepsSameDateOrder(entries: seq<Entry>, date: Value -> int, k: int)
    ensures SameDate(SortBy(entries, NewerFirst(date)), date, k) == SameDate(entries, date, k)
  {
    var lt := NewerFirst(date);
    var catalog := SortBy(entries, lt);
    var p := (e: Entry) => CreatedKey(e, date) == k;
    if e :| e in entries && CreatedKey(e, date) == k {
      NewerFirstOrder(date);
      SortByStable(entries, lt, e);
      FilterExt(catalog, p, y => Tied(lt, e, y));
      FilterExt(entries, p, y => Tied(lt, e, y));
    } else {
      assert forall y :: y in catalog ==> y in multiset(entries);
      FilterKeepsNone(catalog, p);
      FilterKeepsNone(entries, p);
    }
  }

  /** The sort is stable: entries with the same timestamp keep the order in
      which their files were discovered. */
  lemma CatalogStable(listing: seq<Node>, decode: string -> Option<Value>, date: Value -> int, k: int)
    ensures SameDate(Build(Some(listing), decode, date).catalog, date, k)
         == SameDate(Collect(Scan(listing), decode).0, date, k)
  {
    SortKeepsSameDateOrder(Collect(Scan(listing), decode).0, date, k);
  }

  /** An accepted record becomes an entry carrying every required field with
      a truthy value. */
  lemma AcceptedComplete(m: MetaFile, decode: string -> Option<Value>)
    requires Validate(m, decode).Success?
    ensures var e := Validate(m, decode).value;
      forall f :: f in RequiredFields ==> f in e.fields && !Falsy(e.fields[f])
  {
    var meta := decode(m.text).value;
    var e := WithLocation(meta.fields, Id(m.dir));
    assert Validate(m, decode).value == e;
    forall f | f in RequiredFields
      ensures f in e.fields && !Falsy(e.fields[f])
    {
      assert !IsMissing(meta, f);
      assert f != "id" && f != "path";
    }
  }

  /** Every catalog entry comes from a discovered record that passed both
      checks: it carries every required field with a truthy value, its `id`
      is its directory path joined with `/`, and its `path` is
      `/artifacts/<id>/index.html`. */
  lemma EntriesWellFormed(listing: seq<Node>, decode: string -> Option<Value>, date: Value -> int, e: Entry)
    requires e in Build(Some(listing), decode, date).catalog
    ensures forall f :: f in RequiredFields ==> f in e.fields && !Falsy(e.fields[f])
    ensures "id" in e.fields && "path" in e.fields
    ensures exists m :: && m in Scan(listing) && m.besideIndex
                        && e.fields["id"] == Str(Id(m.dir))
                        && e.fields["path"] == Str(PublicPath(Id(m.dir)))
  {
    var entries := Collect(Scan(listing), decode).0;
    assert e in multiset(entries);
    CollectEntries(Scan(listing), decode, e);
    var m :| m in Scan(listing) && Validate(m, decode) == Success(e);
    AcceptedComplete(m, decode);
  }

  /** Conversely, every discovered record that passes both checks appears in
      the catalog, with the id and path its directory determines. */
  lemma GoodRecordsCatalogued(listing: seq<Node>, decode: string -> Option<Value>, date: Value -> int, m: MetaFile)
    requires m in Scan(listing)
    ensures GoodRecord(m, decode) ==>
      WithLocation(decode(m.text).value.fields, Id(m.dir)) in Build(Some(listing), decode, date).catalog
  {
    if GoodRecord(m, decode) {
      var e := WithLocation(decode(m.text).value.fields, Id(m.dir));
      CollectEntries(Scan(listing), decode, e);
      assert e in multiset(Collect(Scan(listing), decode).0);
    }
  }

  /** How a run ends: the catalog file written, the errors printed, the exit code. */
  datatype Outcome = Outcome(written: seq<Entry>, reported: seq<BuildError>, exitCode: int)

  /** The whole script: the catalog is always written (empty when there is no
      artifacts directory), and the process exits with 1 exactly when some
      record was rejected. */
  function Run(root: Option<seq<Node>>, decode: string -> Option<Value>, date: Value -> int): (o: Outcome)
    ensures o.written == Build(root, decode, date).catalog
    ensures o.reported == Build(root, decode, date).errors
    ensures o.exitCode == 1 <==> |o.reported| > 0
    ensures o.exitCode == 0 <==> |o.reported| == 0
    ensures root.None? ==> o == Outcome([], [], 0)
  {
    var r := Build(root, decode, date);
    Outcome(r.catalog, r.errors, if |r.errors| > 0 then 1 else 0)
  }
}

=== FILE: catalog_example.dfy ===
/** A worked run of the catalog builder: one good artifact and one whose
    record lacks its description (and its index.html, which is never checked
    because the field check fails first). */
module CatalogExample {
  import opened Wrappers
  import opened Json
  import opened FileTree
  import opened CatalogBuilder
  import opened Seqs

  const Demo := Obj(map[
    "title" := Str("Demo"), "function" := Str("Engineering"),
    "description" := Str("A demo"), "createdAt" := Str("2024-01-01"),
    "tags" := Arr([Str("ai"), Str("demo")])])

  const Undescribed := Obj(map[
    "title" := Str("Draft"), "function" := Str("Product"), "createdAt" := Str("2024-02-01")])

  const Tree := [
    Dir("proj1", [File("meta.json", "demo"), File("index.html", "<html></html>")]),
    Dir("proj2", [File("meta.json", "draft")])]

  function Decode(text: string): Option<Value> {
    if text == "demo" then Some(Demo)
    else if text == "draft" then Some(Undescribed)
    else None
  }

  /** The scan finds both records, and only the first has a page beside it. */
  lemma ScanFindsBoth(tree: seq<Node>)
    requires tree == Tree
    ensures Scan(tree) == [MetaFile(["proj1"], "demo", true), MetaFile(["proj2"], "draft", false)]
  {
    var c1 := tree[0].children;
    var c2 := tree[1].children;
    assert HasEntry(c1, IndexName) by {
      assert c1[1].name == IndexName;
    }
    assert !HasEntry(c2, IndexName);
    assert c1[1..][1..] == [];
    assert ScanEntries(c1, c1[1..]) == [];
    assert Scan(c1) == [MetaFile([], "demo", true)];
    assert c2[1..] == [];
    assert Scan(c2) == [MetaFile([], "draft", false)];
    assert ["proj1"] + [] == ["proj1"] && ["proj2"] + [] == ["proj2"];
    assert Within("proj1", Scan(c1))[0] == MetaFile(["proj1"], "demo", true);
    assert Within("proj2", Scan(c2))[0] == MetaFile(["proj2"], "draft", false);
    assert tree[1..][1..] == [];
    assert ScanEntries(tree, tree[1..]) == [MetaFile(["proj2"], "draft", false)];
  }

  lemma DemoAccepted()
    ensures Validate(MetaFile(["proj1"], "demo", true), Decode)
         == Success(WithLocation(Demo.fields, "proj1"))
  {
    assert Complete(Demo);
  }

  /** A record whose only missing field is `description` reports just that. */
  lemma OnlyDescriptionMissing(meta: Value)
    requires !IsMissing(meta, "title") && !IsMissing(meta, "function")
    requires IsMissing(meta, "description") && !IsMissing(meta, "createdAt")
    ensures MissingFields(meta) == ["description"]
  {
    var p := f => IsMissing(meta, f);
    var fs := RequiredFields;
    assert fs[1..][1..][1..][1..] == [];
    assert Filter(fs[1..][1..][1..], p) == [];
    assert Filter(fs[1..][1..], p) == ["description"];
    assert Filter(fs[1..], p) == ["description"];
  }

  lemma DraftRejected()
    ensures Validate(MetaFile(["proj2"], "draft", false), Decode)
         == Failure(FieldsMissing(["description"]))
  {
    var m := MetaFile(["proj2"], "draft", false);
    assert Decode(m.text) == Some(Undescribed);
    assert !IsMissing(Undescribed, "title") && !IsMissing(Undescribed, "function");
    assert IsMissing(Undescribed, "description") && !IsMissing(Undescribed, "createdAt");
    OnlyDescriptionMissing(Undescribed);
  }

  lemma DraftError()
    ensures ErrorAt(MetaFile(["proj2"], "draft", false), FieldsMissing(["description"]))
         == BuildError(["proj2", "meta.json"], FieldsMissing(["description"]))
  {
    assert ["proj2"] + [MetaName] == ["proj2", "meta.json"];
  }

  /** The accepted record alone is collected as one entry and no error. */
  lemma DemoCollected(f: MetaFile)
    requires f == MetaFile(["proj1"], "demo", true)
    ensures Collect([f], Decode).0 == [WithLocation(Demo.fields, "proj1")]
    ensures Collect([f], Decode).1 == []
  {
    DemoAccepted();
    CollectStep([], f, Decode);
    assert [] + [f] == [f];
  }

  /** The rejected record, collected after the accepted one, adds its error
      and no entry. */
  lemma DraftCollectedAfter(prefix: seq<MetaFile>, g: MetaFile)
    requires g == MetaFile(["proj2"], "draft", false)
    ensures Collect(prefix + [g], Decode).0 == Collect(prefix, Decode).0
    ensures Collect(prefix + [g], Decode).1 == Collect(prefix, Decode).1 + [BuildError(["proj2", "meta.json"], FieldsMissing(["description"]))]
  {
    DraftRejected();
    DraftError();
    CollectStep(prefix, g, Decode);
  }

  /** Collecting both files, in scan order, gives one entry and one error. */
  lemma CollectsOneEntryAndOneError(f: MetaFile, g: MetaFile)
    requires f == MetaFile(["proj1"], "demo", true)
    requires g == MetaFile(["proj2"], "draft", false)
    ensures Collect([f] + [g], Decode).0 == [WithLocation(Demo.fields, "proj1")]
    ensures Collect([f] + [g], Decode).1 == [BuildError(["proj2", "meta.json"], FieldsMissing(["description"]))]
  {
    DemoCollected(f);
    DraftCollectedAfter([f], g);
  }

  /** The single entry is the record plus `id: "proj1"` and
      `path: "/artifacts/proj1/index.html"`. */
  lemma DemoEntryLocation()
    ensures WithLocation(Demo.fields, "proj1").fields["id"] == Str("proj1")
    ensures WithLocation(Demo.fields, "proj1").fields["path"] == Str("/artifacts/proj1/index.html")
    ensures WithLocation(Demo.fields, "proj1").fields["title"] == Str("Demo")
  {
  }
}

=== FILE: filetree.dfy ===
/** The artifacts directory as a tree, and the recursive search for
    `meta.json` files (`scanDirectory` in scripts/generate-catalog.js). */
module FileTree {
  import opened Strings

  /** A directory entry. Directory listings keep the order the file system
      returned them in. */
  datatype Node =
    | File(name: string, text: string)
    | Dir(name: string, children: seq<Node>)

  /** A discovered metadata file: the path of its directory relative to the
      scanned directory (one segment per level), its text, and whether an
      entry named `index.html` sits beside it. */
  datatype MetaFile = MetaFile(dir: seq<string>, text: string, besideIndex: bool)

  const MetaName := "meta.json"
  const IndexName := "index.html"

  /** Some entry of the listing, file or directory, has the given name
      (`fs.existsSync` on the joined path). */
  predicate HasEntry(listing: seq<Node>, name: string) {
    exists i :: 0 <= i < |listing| && listing[i].name == name
  }

  /** Prefixes every discovered file's directory with `d`. */
  function Within(d: string, found: seq<MetaFile>): seq<MetaFile> {
    seq(|found|, i requires 0 <= i < |found| => found[i].(dir := [d] + found[i].dir))
  }

  /** All `meta.json` files below a directory with listing `listing`, in
      depth-first listing order. */
  function Scan(listing: seq<Node>): seq<MetaFile>
    decreases listing, 1
  {
    ScanEntries(listing, listing)
  }

  /** Visits the entries `rest` of a listing `listing` in order: directories
      are searched recursively, a file named `meta.json` is collected, and
      every other file is skipped. A directory named `meta.json` is searched,
      not collected. */
  function ScanEntries(listing: seq<Node>, rest: seq<Node>): seq<MetaFile>
    decreases rest, 0
  {
    if rest == [] then []
    else
      var here :=
        match rest[0]
        case Dir(d, sub) => Within(d, Scan(sub))
        case File(n, t) =>
          if n == MetaName then [MetaFile([], t, HasEntry(listing, IndexName))] else [];
      here + ScanEntries(listing, rest[1..])
  }

  /** The tree below `listing` holds the metadata file `m`: following `m.dir`
      through directories of those names reaches a listing with a file named
      `meta.json` of text `m.text`, and `m.besideIndex` records whether that
      listing also has an `index.html`. */
  ghost predicate Holds(listing: seq<Node>, m: MetaFile)
    decreases listing
  {
    if m.dir == [] then
      && (exists i :: 0 <= i < |listing| && listing[i] == File(MetaName, m.text))
      && m.besideIndex == HasEntry(listing, IndexName)
    else
      exists i :: 0 <= i < |listing| && listing[i].Dir? && listing[i].name == m.dir[0]
                  && Holds(listing[i].children, m.(dir := m.dir[1..]))
  }

  lemma WithinMember(d: string, found: seq<MetaFile>, m: MetaFile)
    ensures m in Within(d, found) <==> m.dir != [] && m.dir[0] == d && m.(dir := m.dir[1..]) in found
  {
    if m in Within(d, found) {
      var i :| 0 <= i < |found| && Within(d, found)[i] == m;
      assert m.(dir := m.dir[1..]) == found[i];
    }
    if m.dir != [] && m.dir[0] == d && m.(dir := m.dir[1..]) in found {
      var i :| 0 <= i < |found| && found[i] == m.(dir := m.dir[1..]);
      assert [d] + m.dir[1..] == m.dir;
      assert Within(d, found)[i] == m;
    }
  }

  /** The scan returns exactly the metadata files the tree holds: every file
      named `meta.json` at any depth, and nothing else. */
  lemma {:induction false} ScanExact(listing: seq<Node>, m: MetaFile)
    ensures m in Scan(listing) <==> Holds(listing, m)
    decreases listing, 1
  {
    ScanEntriesExact(listing, listing, m);
  }

  lemma {:induction false} ScanEntriesExact(listing: seq<Node>, rest: seq<Node>, m: MetaFile)
    ensures m in ScanEntries(listing, rest) <==>
      if m.dir == [] then
        && (exists i :: 0 <= i < |rest| && rest[i] == File(MetaName, m.text))
        && m.besideIndex == HasEntry(listing, IndexName)
      else
        exists i :: 0 <= i < |rest| && rest[i].Dir? && rest[i].name == m.dir[0]
                    && Holds(rest[i].children, m.(dir := m.dir[1..]))
    decreases rest, 0
  {
    if rest != [] {
      ScanEntriesExact(listing, rest[1..], m);
      assert forall i :: 1 <= i < |rest| ==> rest[i] == rest[1..][i - 1];
      match rest[0]
      case Dir(d, sub) =>
        WithinMember(d, Scan(sub), m);
        if m.dir != [] {
          ScanExact(sub, m.(dir := m.dir[1..]));
        }
      case File(n, t) =>
    }
  }

  /** Every name in the tree is one a directory listing can return: non-empty
      and free of the `/` separator. */
  ghost predicate WellFormed(listing: seq<Node>)
    decreases listing
  {
    forall i :: 0 <= i < |listing| ==>
      && IsSegment(listing[i].name, '/')
      && (listing[i].Dir? ==> WellFormed(listing[i].children))
  }

  /** In a well-formed tree, every directory path the scan can report is made
      of proper segments. */
  lemma {:induction false} HoldsSegments(listing: seq<Node>, m: MetaFile)
    requires WellFormed(listing)
    requires Holds(listing, m)
    ensures forall k :: 0 <= k < |m.dir| ==> IsSegment(m.dir[k], '/')
    decreases listing
  {
    if m.dir != [] {
      var i :| 0 <= i < |listing| && listing[i].Dir? && listing[i].name == m.dir[0]
               && Holds(listing[i].children, m.(dir := m.dir[1..]));
      HoldsSegments(listing[i].children, m.(dir := m.dir[1..]));
      assert forall k :: 1 <= k < |m.dir| ==> m.dir[k] == m.dir[1..][k - 1];
    }
  }
}

=== FILE: function_filter.dfy ===
/** The function picker of src/components/FunctionFilter.jsx: a dropdown
    whose options are "All Functions" and five business functions. */
module FunctionFilter {

  /** The functions the picker offers, in display order. */
  const Functions: seq<string> := ["Engineering", "Product", "MKT", "BD", "HR"]

  /** The text shown when no function is selected. */
  const AllFunctions: string := "All Functions"

  /** The selected function (`""` for none) and whether the dropdown is open. */
  datatype Picker = Picker(selected: string, open: bool)

  /** `handleSelect`: clicking the option already selected clears the
      selection, any other option becomes the selection; the dropdown closes.
      The "All Functions" option is the choice `""`. */
  function Select(p: Picker, choice: string): (r: Picker)
    ensures !r.open
    ensures r.selected == "" <==> choice == "" || choice == p.selected
    ensures r.selected != "" ==> r.selected == choice
  {
    Picker(if choice == p.selected then "" else choice, false)
  }

  /** Choosing "All Functions" clears the selection whatever it was. */
  lemma SelectAllClears(p: Picker)
    ensures Select(p, "").selected == ""
  {
  }

  /** Choosing the same option twice gives back the selection it started from
      exactly when nothing or that option was selected before. */
  lemma SelectTwice(p: Picker, choice: string)
    ensures Select(Select(p, choice), choice).selected == p.selected <==>
      p.selected == "" || p.selected == choice
  {
  }

  /** The choices the dropdown offers: `""` for "All Functions", then each function. */
  const Options: seq<string> := [""] + Functions

  /** Clicking options keeps the selection among the options. */
  lemma SelectStaysInOptions(p: Picker, choice: string)
    ensures p.selected in Options && choice in Options ==> Select(p, choice).selected in Options
  {
  }

  /** The trigger always shows "All Functions" or one of the functions. */
  lemma LabelShowsOption(selected: string)
    ensures selected in Options ==> Label(selected) in [AllFunctions] + Functions
  {
  }

  /** The trigger's text: the selected function, or "All Functions". */
  function Label(selected: string): (r: string)
    ensures r != ""
    ensures selected != "" ==> r == selected
    ensures selected == "" ==> r == AllFunctions
  {
    if selected == "" then AllFunctions else selected
  }
}

=== FILE: json.dfy ===
/** The parsed contents of a `meta.json` file, as far as the builder looks at it. */
module Json {
  import opened Wrappers

  /** A JSON value. Numbers are kept as reals; their binary encoding is not modelled. */
  datatype Value =
    | Null
    | Bool(b: bool)
    | Num(n: real)
    | Str(s: string)
    | Arr(items: seq<Value>)
    | Obj(fields: map<string, Value>)

  /** JavaScript falsiness of a JSON value: `null`, `false`, `0` and `""`.
      Arrays and objects are truthy even when empty. */
  predicate Falsy(v: Value) {
    match v
    case Null => true
    case Bool(b) => !b
    case Num(n) => n == 0.0
    case Str(s) => s == ""
    case Arr(_) => false
    case Obj(_) => false
  }

  /** `v[key]` for a non-null value: an object's own field, `undefined` otherwise
      (arrays, strings, numbers and booleans have none of the keys looked up). */
  function Get(v: Value, key: string): (r: Option<Value>)
    ensures r.Some? <==> v.Obj? && key in v.fields
    ensures r.Some? ==> r.value == v.fields[key]
  {
    if v.Obj? && key in v.fields then Some(v.fields[key]) else None
  }
}

=== FILE: object_counts.dfy ===
/** `tagCounts` in src/components/TagFilter.jsx as JavaScript evaluates it:
    the counts live in an object literal `{}`, so a read of a key the object
    does not own falls through to `Object.prototype`. Tags that are names of
    `Object.prototype` members are therefore not counted from zero. The
    corrected counting, with a map that owns nothing, is `TagFilter.TagCounts`. */
module ObjectCounts {
  import opened Seqs

  /** The JavaScript values an entry of the counts object can hold. */
  datatype JsValue =
    | Undefined
    | Number(n: int)
    | Text(s: string)
    | NativeFunction(name: string)
    | ObjectPrototype

  /** The members of `Object.prototype` that are methods, besides `constructor`. */
  const PrototypeMethods: set<string> := {
    "toString", "toLocaleString", "valueOf", "hasOwnProperty", "isPrototypeOf",
    "propertyIsEnumerable", "__defineGetter__", "__defineSetter__",
    "__lookupGetter__", "__lookupSetter__"
  }

  /** The names every object literal inherits. */
  predicate IsInherited(key: string) {
    key == "__proto__" || key == "constructor" || key in PrototypeMethods
  }

  /** What a key the object does not own reads as. */
  function Inherited(key: string): (v: JsValue)
    ensures v == Undefined <==> !IsInherited(key)
  {
    if key == "__proto__" then ObjectPrototype
    else if key == "constructor" then NativeFunction("Object")
    else if key in PrototypeMethods then NativeFunction(key)
    else Undefined
  }

  /** `counts[key]`: an own property, or else the inherited one. */
  function Get(own: map<string, JsValue>, key: string): JsValue {
    if key in own then own[key] else Inherited(key)
  }

  /** `counts[key] = v` for a primitive `v`: assigning a primitive to
      `__proto__` is ignored, any other key becomes an own property. */
  function Put(own: map<string, JsValue>, key: string, v: JsValue): (r: map<string, JsValue>)
    ensures forall k :: k != key ==> Get(r, k) == Get(own, k)
    ensures key != "__proto__" ==> Get(r, key) == v
    ensures key == "__proto__" ==> r == own
  {
    if key == "__proto__" then own else own[key := v]
  }

  /** The text a native function converts to. */
  function NativeSource(name: string): string {
    "function " + name + "() { [native code] }"
  }

  /** JavaScript falsiness on the values this model needs (`Json.Falsy` is
      the same notion on parsed JSON values). */
  predicate JsFalsy(v: JsValue) {
    v == Undefined || v == Number(0) || v == Text("")
  }

  /** `(v || 0) + 1`: a falsy value counts as zero, a number is incremented,
      anything else is turned into its string form with "1" appended. */
  function PlusOne(v: JsValue): (r: JsValue)
    ensures JsFalsy(v) ==> r == Number(1)
    ensures v.Number? && v.n != 0 ==> r == Number(v.n + 1)
    ensures !v.Number? && !JsFalsy(v) ==> r.Text?
  {
    if JsFalsy(v) then Number(1)
    else match v
      case Number(n) => Number(n + 1)
      case Text(s) => Text(s + "1")
      case NativeFunction(name) => Text(NativeSource(name) + "1")
      case ObjectPrototype => Text("[object Object]1")
      case Undefined => Number(1)
  }

  /** The counts object after visiting the tag occurrences in order. */
  function CountsAsWritten(tags: seq<string>): map<string, JsValue>
    decreases |tags|
  {
    if tags == [] then map[]
    else
      var own := CountsAsWritten(tags[..|tags| - 1]);
      var t := tags[|tags| - 1];
      Put(own, t, PlusOne(Get(own, t)))
  }

  /** For every tag that is not an inherited name the object counts
      occurrences correctly (and an unused tag reads `undefined`, shown as 0). */
  lemma {:induction false} OrdinaryTagCounted(tags: seq<string>, t: string)
    requires !IsInherited(t)
    ensures Get(CountsAsWritten(tags), t) == if Count(tags, t) == 0 then Undefined else Number(Count(tags, t))
    decreases |tags|
  {
    if tags != [] {
      OrdinaryTagCounted(tags[..|tags| - 1], t);
    }
  }

  /** A tag named "constructor", used once, reads as the source text of the
      `Object` function with "1" appended instead of 1. */
  lemma ConstructorTagMiscounted(tags: seq<string>)
    requires tags == ["constructor"]
    ensures Count(tags, "constructor") == 1
    ensures Get(CountsAsWritten(tags), "constructor") == Text(NativeSource("Object") + "1")
  {
    assert tags[..0] == [];
  }

  /** A tag named "__proto__" is never counted, however often it occurs. */
  lemma {:induction false} ProtoTagNeverCounted(tags: seq<string>)
    ensures Get(CountsAsWritten(tags), "__proto__") == ObjectPrototype
    decreases |tags|
  {
    if tags != [] {
      ProtoTagNeverCounted(tags[..|tags| - 1]);
    }
  }
}

=== FILE: seqs.dfy ===
/** Sequence operations shared by the catalog builder and the filter UI:
    order-preserving filtering, subsequences, occurrence counts and
    first-occurrence de-duplication. */
module Seqs {

  /** The elements of `s` that satisfy `p`, in their original order
      (JavaScript's `Array.prototype.filter`). */
  function Filter<T(!new)>(s: seq<T>, p: T -> bool): (r: seq<T>)
    ensures |r| <= |s|
    ensures forall x :: x in r <==> x in s && p(x)
    decreases |s|
  {
    if s == [] then []
    else (if p(s[0]) then [s[0]] else []) + Filter(s[1..], p)
  }

  /** Filtering keeps every copy of a kept element: each element occurs in
      the result as often as in the input when it satisfies `p`, else not at all. */
  lemma {:induction false} FilterMultiset<T(!new)>(s: seq<T>, p: T -> bool)
    ensures forall x :: multiset(Filter(s, p))[x] == if p(x) then multiset(s)[x] else 0
    decreases |s|
  {
    if s != [] {
      FilterMultiset(s[1..], p);
      assert s == [s[0]] + s[1..];
    }
  }

  /** `a` is an order-preserving subsequence of `b`. */
  predicate IsSubseq<T(==)>(a: seq<T>, b: seq<T>)
    decreases |b|
  {
    if a == [] then true
    else if b == [] then false
    else (a[0] == b[0] && IsSubseq(a[1..], b[1..])) || IsSubseq(a, b[1..])
  }

  /** The number of occurrences of `x` in `s`. */
  function Count<T(==)>(s: seq<T>, x: T): nat
    decreases |s|
  {
    if s == [] then 0
    else Count(s[..|s| - 1], x) + (if s[|s| - 1] == x then 1 else 0)
  }

  /** No element occurs twice. */
  predicate Distinct<T(==)>(s: seq<T>) {
    forall i, j :: 0 <= i < j < |s| ==> s[i] != s[j]
  }

  /** `s` with every occurrence of `x` dropped, the rest in order. */
  function Remove<T(==,!new)>(s: seq<T>, x: T): (r: seq<T>)
    ensures x !in r
    ensures forall y :: y != x ==> (y in r <==> y in s)
    ensures IsSubseq(r, s)
    ensures forall y :: multiset(r)[y] == if y == x then 0 else multiset(s)[y]
  {
    FilterIsSubseq(s, y => y != x);
    FilterMultiset(s, y => y != x);
    Filter(s, y => y != x)
  }

  /** The elements of `s`, each once: the contents of a JavaScript `Set`
      built from `s`. Their order is left unstated; every use sorts them. */
  function Dedupe<T(==,!new)>(s: seq<T>): (r: seq<T>)
    ensures forall x :: x in r <==> x in s
    ensures Distinct(r)
    decreases |s|
  {
    if s == [] then []
    else
      var d := Dedupe(s[..|s| - 1]);
      var x := s[|s| - 1];
      assert forall y :: y in s <==> y in s[..|s| - 1] || y == x by {
        assert s == s[..|s| - 1] + [x];
      }
      if x in d then d else d + [x]
  }

  /** Adding an element in front of the larger sequence keeps a subsequence. */
  lemma {:induction false} SubseqCons<T>(a: seq<T>, b: seq<T>, x: T)
    requires IsSubseq(a, b)
    ensures IsSubseq(a, [x] + b)
  {
    if a != [] {
      assert ([x] + b)[1..] == b;
    }
  }

  /** Filtering keeps relative order: the result is a subsequence of the input. */
  lemma {:induction false} FilterIsSubseq<T(!new)>(s: seq<T>, p: T -> bool)
    ensures IsSubseq(Filter(s, p), s)
    decreases |s|
  {
    if s != [] {
      FilterIsSubseq(s[1..], p);
      var rest := Filter(s[1..], p);
      if p(s[0]) {
        assert Filter(s, p) == [s[0]] + rest;
        assert ([s[0]] + rest)[1..] == rest;
      } else {
        assert Filter(s, p) == rest;
        SubseqCons(rest, s[1..], s[0]);
        assert [s[0]] + s[1..] == s;
      }
    }
  }

  /** A weaker predicate keeps more: filtering by `p` gives a subsequence of
      filtering by `q` when `p` implies `q` on the elements of `s`. */
  lemma {:induction false} FilterMonotone<T(!new)>(s: seq<T>, p: T -> bool, q: T -> bool)
    requires forall x :: x in s && p(x) ==> q(x)
    ensures IsSubseq(Filter(s, p), Filter(s, q))
    decreases |s|
  {
    if s != [] {
      assert forall x :: x in s[1..] ==> x in s;
      FilterMonotone(s[1..], p, q);
      var rp := Filter(s[1..], p);
      var rq := Filter(s[1..], q);
      if p(s[0]) {
        assert Filter(s, p) == [s[0]] + rp;
        assert Filter(s, q) == [s[0]] + rq;
        assert ([s[0]] + rp)[1..] == rp;
        assert ([s[0]] + rq)[1..] == rq;
      } else if q(s[0]) {
        assert Filter(s, p) == rp;
        assert Filter(s, q) == [s[0]] + rq;
        SubseqCons(rp, rq, s[0]);
      } else {
        assert Filter(s, p) == rp;
        assert Filter(s, q) == rq;
      }
    }
  }

  /** Filtering changes nothing when every element passes. */
  lemma {:induction false} FilterKeepsAll<T(!new)>(s: seq<T>, p: T -> bool)
    requires forall x :: x in s ==> p(x)
    ensures Filter(s, p) == s
    decreases |s|
  {
    if s != [] {
      assert forall x :: x in s[1..] ==> x in s;
      FilterKeepsAll(s[1..], p);
      assert [s[0]] + s[1..] == s;
    }
  }

  /** Filtering keeps nothing when no element passes. */
  lemma {:induction false} FilterKeepsNone<T(!new)>(s: seq<T>, p: T -> bool)
    requires forall x :: x in s ==> !p(x)
    ensures Filter(s, p) == []
    decreases |s|
  {
    if s != [] {
      assert forall x :: x in s[1..] ==> x in s;
      FilterKeepsNone(s[1..], p);
    }
  }

  /** Filtering twice by the same predicate is filtering once. */
  lemma FilterIdempotent<T(!new)>(s: seq<T>, p: T -> bool)
    ensures Filter(Filter(s, p), p) == Filter(s, p)
  {
    FilterKeepsAll(Filter(s, p), p);
  }

  /** Filtering distributes over concatenation. */
  lemma {:induction false} FilterAppend<T(!new)>(a: seq<T>, b: seq<T>, p: T -> bool)
    ensures Filter(a + b, p) == Filter(a, p) + Filter(b, p)
    decreases |a|
  {
    if a == [] {
      assert a + b == b;
    } else {
      assert (a + b)[0] == a[0];
      assert (a + b)[1..] == a[1..] + b;
      FilterAppend(a[1..], b, p);
    }
  }

  /** Filtering depends only on what the predicate says about the elements. */
  lemma {:induction false} FilterExt<T(!new)>(s: seq<T>, p: T -> bool, q: T -> bool)
    requires forall x :: x in s ==> p(x) == q(x)
    ensures Filter(s, p) == Filter(s, q)
    decreases |s|
  {
    if s != [] {
      assert forall x :: x in s[1..] ==> x in s;
      FilterExt(s[1..], p, q);
    }
  }

  /** A distinct sequence holds each value at most once. */
  lemma {:induction false} DistinctAtMostOnce<T>(s: seq<T>)
    requires Distinct(s)
    ensures forall x :: multiset(s)[x] <= 1
    decreases |s|
  {
    if s != [] {
      var init := s[..|s| - 1];
      var last := s[|s| - 1];
      assert s == init + [last];
      assert Distinct(init);
      DistinctAtMostOnce(init);
      assert last !in init;
    }
  }

  /** Two equal elements at different positions count twice. */
  lemma RepeatCountsTwice<T>(s: seq<T>, i: int, j: int)
    requires 0 <= i < j < |s|
    ensures s[i] == s[j] ==> multiset(s)[s[i]] >= 2
  {
    if s[i] == s[j] {
      assert s == s[..j] + s[j..];
      assert s[i] in s[..j];
      assert s[j] in s[j..];
    }
  }

  /** A rearrangement of a distinct sequence is distinct. */
  lemma DistinctPermutation<T>(s: seq<T>, r: seq<T>)
    requires Distinct(s)
    requires multiset(r) == multiset(s)
    ensures Distinct(r)
  {
    DistinctAtMostOnce(s);
    forall i, j | 0 <= i < j < |r|
      ensures r[i] != r[j]
    {
      RepeatCountsTwice(r, i, j);
    }
  }

  /** Removing a value that is not there changes nothing. */
  lemma RemoveAbsent<T(!new)>(s: seq<T>, x: T)
    requires x !in s
    ensures Remove(s, x) == s
  {
    FilterKeepsAll(s, y => y != x);
  }

  /** Removing from a concatenation removes from both parts. */
  lemma RemoveAppend<T(!new)>(a: seq<T>, b: seq<T>, x: T)
    ensures Remove(a + b, x) == Remove(a, x) + Remove(b, x)
  {
    FilterAppend(a, b, y => y != x);
  }

  /** Removing twice is removing once. */
  lemma RemoveIdempotent<T(!new)>(s: seq<T>, x: T)
    ensures Remove(Remove(s, x), x) == Remove(s, x)
  {
    RemoveAbsent(Remove(s, x), x);
  }

  /** Keeping only the copies of `x` keeps as many as the multiset of `s` holds. */
  lemma {:induction false} CopiesCount<T(!new)>(s: seq<T>, p: T -> bool, x: T)
    requires forall y :: p(y) <==> y == x
    ensures |Filter(s, p)| == multiset(s)[x]
    decreases |s|
  {
    if s != [] {
      CopiesCount(s[1..], p, x);
      assert s == [s[0]] + s[1..];
      assert multiset(s) == multiset{s[0]} + multiset(s[1..]);
    }
  }

  /** Removing an element from a sequence without repeats leaves none. */
  lemma RemoveDistinct<T(!new)>(s: seq<T>, x: T)
    requires Distinct(s)
    ensures Distinct(Remove(s, x))
  {
    var r := Remove(s, x);
    DistinctAtMostOnce(s);
    forall i, j | 0 <= i < j < |r|
      ensures r[i] != r[j]
    {
      RepeatCountsTwice(r, i, j);
    }
  }
}

=== FILE: sorting.dfy ===
/** A stable sort over a strict weak order, as `Array.prototype.sort` with a
    consistent comparator must behave (section 22.1.3.27 of ECMA-262, 10th
    edition, requires the sort to be stable). `lt(a, b)` means "a goes before b";
    elements neither of which goes before the other are tied. */
module Sorting {
  import opened Seqs

  /** `lt` is irreflexive, transitive, and being tied is transitive too
      (stated as: if a goes before c, every b goes after a or before c). */
  ghost predicate StrictWeakOrder<T(!new)>(lt: (T, T) -> bool) {
    && (forall a :: !lt(a, a))
    && (forall a, b, c :: lt(a, b) && lt(b, c) ==> lt(a, c))
    && (forall a, b, c :: lt(a, c) ==> lt(a, b) || lt(b, c))
  }

  /** Neither of `a` and `b` goes before the other. */
  predicate Tied<T>(lt: (T, T) -> bool, a: T, b: T) {
    !lt(a, b) && !lt(b, a)
  }

  /** No element goes before an element placed earlier than it. */
  predicate SortedBy<T>(s: seq<T>, lt: (T, T) -> bool) {
    forall i, j :: 0 <= i < j < |s| ==> !lt(s[j], s[i])
  }

  /** The elements of `s` tied with `x`, in their order in `s`. A sort is
      stable when it leaves every such class in its original order. */
  function Class<T(!new)>(s: seq<T>, lt: (T, T) -> bool, x: T): seq<T> {
    Filter(s, y => Tied(lt, x, y))
  }

  /** Puts `x` after the elements that go before it and ahead of the rest,
      so `x` stays ahead of everything it is tied with. */
  function InsertBy<T>(x: T, s: seq<T>, lt: (T, T) -> bool): (r: seq<T>)
    ensures multiset(r) == multiset(s) + multiset{x}
    decreases |s|
  {
    if s == [] then [x]
    else if lt(s[0], x) then
      assert s == [s[0]] + s[1..];
      [s[0]] + InsertBy(x, s[1..], lt)
    else [x] + s
  }

  /** Stable insertion sort: the first element is inserted into the sorted rest. */
  function SortBy<T>(s: seq<T>, lt: (T, T) -> bool): (r: seq<T>)
    ensures multiset(r) == multiset(s)
    decreases |s|
  {
    if s == [] then []
    else
      assert s == [s[0]] + s[1..];
      InsertBy(s[0], SortBy(s[1..], lt), lt)
  }

  /** One step of `Class`: the head of `s` joins the class of `x` when tied with it. */
  lemma ClassCons<T(!new)>(s: seq<T>, lt: (T, T) -> bool, x: T)
    requires s != []
    ensures Class(s, lt, x) == (if Tied(lt, x, s[0]) then [s[0]] else []) + Class(s[1..], lt, x)
  {
  }

  lemma {:induction false} InsertSorted<T(!new)>(x: T, s: seq<T>, lt: (T, T) -> bool)
    requires StrictWeakOrder(lt)
    requires SortedBy(s, lt)
    ensures SortedBy(InsertBy(x, s, lt), lt)
    decreases |s|
  {
    if s != [] {
      if lt(s[0], x) {
        var tail := InsertBy(x, s[1..], lt);
        InsertSorted(x, s[1..], lt);
        var r := [s[0]] + tail;
        forall j | 0 < j < |r|
          ensures !lt(r[j], s[0])
        {
          assert r[j] in multiset(tail);
          assert r[j] in multiset(s[1..]) || r[j] == x;
          if r[j] != x {
            var k :| 0 <= k < |s[1..]| && s[1..][k] == r[j];
            assert s[k + 1] == r[j];
          }
        }
      } else {
        var r := [x] + s;
        forall i, j | 0 <= i < j < |r|
          ensures !lt(r[j], r[i])
        {
          if i == 0 {
            assert r[j] == s[j - 1];
            assert !lt(s[j - 1], s[0]);
          }
        }
      }
    }
  }

  /** The result of `SortBy` is sorted. */
  lemma {:induction false} SortBySorted<T(!new)>(s: seq<T>, lt: (T, T) -> bool)
    requires StrictWeakOrder(lt)
    ensures SortedBy(SortBy(s, lt), lt)
    decreases |s|
  {
    if s != [] {
      SortBySorted(s[1..], lt);
      InsertSorted(s[0], SortBy(s[1..], lt), lt);
    }
  }

  /** Inserting `x` adds it at the front of its own class and leaves every
      other class as it was. */
  lemma {:induction false} InsertClass<T(!new)>(x: T, s: seq<T>, lt: (T, T) -> bool, y: T)
    requires StrictWeakOrder(lt)
    ensures Class(InsertBy(x, s, lt), lt, y) == (if Tied(lt, y, x) then [x] else []) + Class(s, lt, y)
    decreases |s|
  {
    if s == [] {
      ClassCons([x], lt, y);
      assert [x][1..] == [];
    } else if lt(s[0], x) {
      InsertClass(x, s[1..], lt, y);
      TiedNotPassed(lt, y, x, s[0]);
      InsertClassStep(x, s, lt, y);
    } else {
      var r := [x] + s;
      ClassCons(r, lt, y);
      assert r[1..] == s;
    }
  }

  /** The inductive step of `InsertClass` when `x` moves past the head of `s`. */
  lemma InsertClassStep<T(!new)>(x: T, s: seq<T>, lt: (T, T) -> bool, y: T)
    requires s != [] && lt(s[0], x)
    requires Tied(lt, y, x) ==> !Tied(lt, y, s[0])
    requires Class(InsertBy(x, s[1..], lt), lt, y) == (if Tied(lt, y, x) then [x] else []) + Class(s[1..], lt, y)
    ensures Class(InsertBy(x, s, lt), lt, y) == (if Tied(lt, y, x) then [x] else []) + Class(s, lt, y)
  {
    var tail := InsertBy(x, s[1..], lt);
    var r := [s[0]] + tail;
    assert InsertBy(x, s, lt) == r;
    assert r[0] == s[0] && r[1..] == tail;
    ClassCons(r, lt, y);
    ClassCons(s, lt, y);
    SwapFront(s[0], x, Tied(lt, y, s[0]), Tied(lt, y, x),
      Class(r, lt, y), Class(tail, lt, y), Class(s, lt, y), Class(s[1..], lt, y));
  }

  /** The sequence step behind `InsertClassStep`: at most one of two
      single-element prefixes is present, so they commute. */
  lemma SwapFront<T>(a: T, b: T, ta: bool, tb: bool, withB: seq<T>, restB: seq<T>, without: seq<T>, rest: seq<T>)
    requires tb ==> !ta
    requires restB == (if tb then [b] else []) + rest
    requires withB == (if ta then [a] else []) + restB
    requires without == (if ta then [a] else []) + rest
    ensures withB == (if tb then [b] else []) + without
  {
  }

  /** An element that goes before `x` is not tied with anything tied with `x`. */
  lemma TiedNotPassed<T(!new)>(lt: (T, T) -> bool, y: T, x: T, z: T)
    requires StrictWeakOrder(lt)
    ensures Tied(lt, y, x) && lt(z, x) ==> !Tied(lt, y, z)
  {
    if Tied(lt, y, x) && lt(z, x) {
      assert lt(z, y) || lt(y, x);
    }
  }

  /** `SortBy` is stable: every class of tied elements keeps its order. */
  lemma {:induction false} SortByStable<T(!new)>(s: seq<T>, lt: (T, T) -> bool, y: T)
    requires StrictWeakOrder(lt)
    ensures Class(SortBy(s, lt), lt, y) == Class(s, lt, y)
    decreases |s|
  {
    if s != [] {
      SortByStable(s[1..], lt, y);
      InsertClass(s[0], SortBy(s[1..], lt), lt, y);
      ClassCons(s, lt, y);
      assert Tied(lt, y, s[0]) == Tied(lt, s[0], y);
    }
  }

  /** In a sorted sequence nothing goes before the first element. */
  lemma SortedHead<T(!new)>(s: seq<T>, lt: (T, T) -> bool)
    requires StrictWeakOrder(lt)
    requires SortedBy(s, lt)
    ensures forall y :: y in s ==> !lt(y, s[0])
  {
  }

  /** Every element belongs to its own class. */
  lemma OwnClass<T(!new)>(s: seq<T>, lt: (T, T) -> bool)
    requires StrictWeakOrder(lt)
    ensures s != [] ==> s[0] in Class(s, lt, s[0])
  {
  }

  /** Two sorted sequences with the same classes are equal. */
  lemma {:induction false} SortedUnique<T(!new)>(a: seq<T>, b: seq<T>, lt: (T, T) -> bool)
    requires StrictWeakOrder(lt)
    requires SortedBy(a, lt) && SortedBy(b, lt)
    requires forall x :: Class(a, lt, x) == Class(b, lt, x)
    ensures a == b
    decreases |a|
  {
    OwnClass(a, lt);
    OwnClass(b, lt);
    if a != [] && b != [] {
      var x, y := a[0], b[0];
      assert y in Class(a, lt, y);
      assert x in Class(b, lt, x);
      SortedHead(a, lt);
      SortedHead(b, lt);
      assert Tied(lt, x, y);
      assert Tied(lt, x, x);
      ClassCons(a, lt, x);
      ClassCons(b, lt, x);
      assert Class(a, lt, x) == Class(b, lt, x);
      assert Class(a, lt, x)[0] == x && Class(b, lt, x)[0] == y;
      forall z
        ensures Class(a[1..], lt, z) == Class(b[1..], lt, z)
      {
        ClassCons(a, lt, z);
        ClassCons(b, lt, z);
        var h := if Tied(lt, z, x) then [x] else [];
        assert Class(a, lt, z) == h + Class(a[1..], lt, z);
        assert Class(b, lt, z) == h + Class(b[1..], lt, z);
        assert Class(a, lt, z) == Class(b, lt, z);
        assert (h + Class(a[1..], lt, z))[|h|..] == Class(a[1..], lt, z);
        assert (h + Class(b[1..], lt, z))[|h|..] == Class(b[1..], lt, z);
      }
      SortedUnique(a[1..], b[1..], lt);
      assert a == [x] + a[1..] && b == [y] + b[1..];
    }
  }

  /** Any sorted arrangement of `s` that keeps every class of tied elements in
      order is exactly `SortBy(s, lt)`: the model's insertion sort stands for
      every stable sort, whatever algorithm the engine uses. */
  lemma StableSortUnique<T(!new)>(s: seq<T>, r: seq<T>, lt: (T, T) -> bool)
    requires StrictWeakOrder(lt)
    requires SortedBy(r, lt)
    requires forall x :: Class(r, lt, x) == Class(s, lt, x)
    ensures r == SortBy(s, lt)
  {
    SortBySorted(s, lt);
    forall x
      ensures Class(SortBy(s, lt), lt, x) == Class(r, lt, x)
    {
      SortByStable(s, lt, x);
    }
    SortedUnique(r, SortBy(s, lt), lt);
  }
}

=== FILE: strings.dfy ===
/** String operations the catalog and the filters rely on: lower-casing,
    substring search, ordinal comparison, and joining/splitting paths. */
module Strings {

  /** `toLowerCase` on one character, restricted to ASCII letters. */
  function LowerChar(c: char): char {
    if 'A' <= c <= 'Z' then (c as int + 32) as char else c
  }

  /** `toLowerCase` on a string, restricted to ASCII letters. */
  function Lower(s: string): (r: string)
    ensures |r| == |s|
    ensures forall i :: 0 <= i < |s| ==> r[i] == LowerChar(s[i])
  {
    seq(|s|, i requires 0 <= i < |s| => LowerChar(s[i]))
  }

  /** Lower-casing an already lower-cased string changes nothing. */
  lemma LowerIdempotent(s: string)
    ensures Lower(Lower(s)) == Lower(s)
  {
  }

  /** `t` occurs in `s` starting at index `i`. */
  ghost predicate OccursAt(s: string, t: string, i: int) {
    0 <= i && i + |t| <= |s| && s[i..i + |t|] == t
  }

  /** `t` occurs somewhere in `s`: the meaning of `s.includes(t)`. */
  ghost predicate Occurs(s: string, t: string) {
    exists i :: OccursAt(s, t, i)
  }

  /** `s.includes(t)`, computed by trying each start position in turn. */
  predicate Contains(s: string, t: string)
    decreases |s|
  {
    |t| <= |s| && (s[..|t|] == t || (s != [] && Contains(s[1..], t)))
  }

  /** `Contains` finds exactly the occurrences `Occurs` describes. */
  lemma ContainsIff(s: string, t: string)
    ensures Contains(s, t) <==> Occurs(s, t)
  {
    if Contains(s, t) {
      ContainsSound(s, t);
    }
    if Occurs(s, t) {
      var i :| OccursAt(s, t, i);
      ContainsComplete(s, t, i);
    }
  }

  lemma {:induction false} ContainsSound(s: string, t: string)
    requires Contains(s, t)
    ensures Occurs(s, t)
    decreases |s|
  {
    if s[..|t|] == t {
      assert OccursAt(s, t, 0);
    } else {
      ContainsSound(s[1..], t);
      var i :| OccursAt(s[1..], t, i);
      assert s[i + 1..i + 1 + |t|] == s[1..][i..i + |t|];
      assert OccursAt(s, t, i + 1);
    }
  }

  lemma {:induction false} ContainsComplete(s: string, t: string, i: int)
    requires OccursAt(s, t, i)
    ensures Contains(s, t)
    decreases i
  {
    if i > 0 {
      assert s[1..][i - 1..i - 1 + |t|] == s[i..i + |t|];
      ContainsComplete(s[1..], t, i - 1);
    }
  }

  /** The empty string occurs in every string. */
  lemma ContainsEmpty(s: string)
    ensures Contains(s, "")
  {
  }

  /** Ordinal string order: what `<` on JavaScript strings and the default
      `Array.prototype.sort` comparison compute, character by character. */
  predicate StrLt(a: string, b: string)
    decreases |a|
  {
    if a == [] then b != []
    else if b == [] then false
    else if a[0] != b[0] then a[0] < b[0]
    else StrLt(a[1..], b[1..])
  }

  lemma {:induction false} StrLtIrreflexive(a: string)
    ensures !StrLt(a, a)
    decreases |a|
  {
    if a != [] {
      StrLtIrreflexive(a[1..]);
    }
  }

  lemma {:induction false} StrLtTransitive(a: string, b: string, c: string)
    requires StrLt(a, b) && StrLt(b, c)
    ensures StrLt(a, c)
    decreases |a|
  {
    if a != [] && b != [] && c != [] && a[0] == b[0] && b[0] == c[0] {
      StrLtTransitive(a[1..], b[1..], c[1..]);
    }
  }

  /** Any two different strings are ordered one way or the other. */
  lemma {:induction false} StrLtTotal(a: string, b: string)
    requires a != b
    ensures StrLt(a, b) || StrLt(b, a)
    decreases |a|
  {
    if a != [] && b != [] && a[0] == b[0] {
      assert a == [a[0]] + a[1..] && b == [b[0]] + b[1..];
      StrLtTotal(a[1..], b[1..]);
    }
  }

  /** `parts.join(sep)`. */
  function Join(parts: seq<string>, sep: string): string
    decreases |parts|
  {
    if parts == [] then ""
    else if |parts| == 1 then parts[0]
    else parts[0] + sep + Join(parts[1..], sep)
  }

  /** The index of the first `c` in `s`, or `|s|` when there is none. */
  function FirstIndex(s: string, c: char): (i: nat)
    ensures i <= |s|
    ensures c !in s[..i]
    ensures i < |s| ==> s[i] == c
    decreases |s|
  {
    if s == [] then 0
    else if s[0] == c then 0
    else 1 + FirstIndex(s[1..], c)
  }

  /** The `c`-separated segments of a path string, without a trailing empty one. */
  function Split(s: string, c: char): seq<string>
    decreases |s|
  {
    if s == [] then []
    else
      var i := FirstIndex(s, c);
      if i == |s| then [s] else [s[..i]] + Split(s[i + 1..], c)
  }

  /** A path segment as a directory listing yields it: non-empty, without the separator. */
  predicate IsSegment(p: string, c: char) {
    p != [] && c !in p
  }

  /** Splitting a joined path gives back its segments. */
  lemma {:induction false} SplitJoin(parts: seq<string>, c: char)
    requires forall k :: 0 <= k < |parts| ==> IsSegment(parts[k], c)
    ensures Split(Join(parts, [c]), c) == parts
    decreases |parts|
  {
    if |parts| == 1 {
      FirstIndexAbsent(parts[0], c);
    } else if |parts| > 1 {
      var p := parts[0];
      var rest := Join(parts[1..], [c]);
      var s := p + [c] + rest;
      assert Join(parts, [c]) == s;
      FirstIndexAfter(p, c, rest);
      assert s[..|p|] == p;
      assert s[|p| + 1..] == rest;
      SplitJoin(parts[1..], c);
      assert [p] + parts[1..] == parts;
    }
  }

  lemma {:induction false} FirstIndexAbsent(s: string, c: char)
    requires c !in s
    ensures FirstIndex(s, c) == |s|
    decreases |s|
  {
    if s != [] {
      FirstIndexAbsent(s[1..], c);
    }
  }

  lemma {:induction false} FirstIndexAfter(p: string, c: char, rest: string)
    requires c !in p
    ensures FirstIndex(p + [c] + rest, c) == |p|
    decreases |p|
  {
    if p != [] {
      assert (p + [c] + rest)[1..] == p[1..] + [c] + rest;
      FirstIndexAfter(p[1..], c, rest);
    }
  }

  /** Joining with a separator that no segment contains is injective: two
      different directory paths never give the same joined string. */
  lemma JoinInjective(a: seq<string>, b: seq<string>, c: char)
    requires forall k :: 0 <= k < |a| ==> IsSegment(a[k], c)
    requires forall k :: 0 <= k < |b| ==> IsSegment(b[k], c)
    requires Join(a, [c]) == Join(b, [c])
    ensures a == b
  {
    SplitJoin(a, c);
    SplitJoin(b, c);
  }

  /** Joining with a separator that starts with a character no part
      contains is injective: the first such character ends the first part. */
  lemma {:induction false} JoinSepInjective(a: seq<string>, b: seq<string>, c: char, t: string)
    requires forall k :: 0 <= k < |a| ==> IsSegment(a[k], c)
    requires forall k :: 0 <= k < |b| ==> IsSegment(b[k], c)
    requires Join(a, [c] + t) == Join(b, [c] + t)
    ensures a == b
    decreases |a|
  {
    var sep := [c] + t;
    var s := Join(a, sep);
    if |a| <= 1 || |b| <= 1 {
    } else {
      var ra := Join(a[1..], sep);
      var rb := Join(b[1..], sep);
      assert s == a[0] + [c] + (t + ra);
      assert s == b[0] + [c] + (t + rb);
      FirstIndexAfter(a[0], c, t + ra);
      FirstIndexAfter(b[0], c, t + rb);
      assert a[0] == s[..|a[0]|] == b[0];
      assert s[|a[0]| + |sep|..] == ra;
      assert s[|b[0]| + |sep|..] == rb;
      JoinSepInjective(a[1..], b[1..], c, t);
      assert a == [a[0]] + a[1..];
      assert b == [b[0]] + b[1..];
    }
  }
}

=== FILE: tag_filter.dfy ===
/** The tag picker of src/components/TagFilter.jsx: how often each tag is
    used, the order the picker lists tags in, the search inside the picker,
    how many tags it shows, and the edits it makes to the selection. */
module TagFilter {
  import opened Seqs
  import opened Strings
  import opened Sorting
  import opened App

  /** The picker lists this many tags until it is expanded or searched. */
  const PageSize: nat := 6

  /** `tagCounts[t] || 0`: a tag that never occurs counts zero. */
  function CountOf(counts: map<string, nat>, t: string): nat {
    if t in counts then counts[t] else 0
  }

  /** `tagCounts`: one pass over every tag of every artifact, adding one per
      occurrence, so a tag listed twice on one artifact counts twice. */
  method TagCounts(arts: seq<Artifact>) returns (counts: map<string, nat>)
    ensures forall t :: CountOf(counts, t) == Count(TagOccurrences(arts), t)
    ensures forall t :: t in counts <==> t in TagOccurrences(arts)
  {
    counts := map[];
    var i := 0;
    while i < |arts|
      invariant 0 <= i <= |arts|
      invariant forall t :: CountOf(counts, t) == Count(TagOccurrences(arts[..i]), t)
      invariant forall t :: t in counts <==> t in TagOccurrences(arts[..i])
    {
      var seen := TagOccurrences(arts[..i]);
      var tags := arts[i].tags;
      var j := 0;
      assert seen + tags[..0] == seen;
      while j < |tags|
        invariant 0 <= j <= |tags|
        invariant forall t :: CountOf(counts, t) == Count(seen + tags[..j], t)
        invariant forall t :: t in counts <==> t in seen + tags[..j]
      {
        var tag := tags[j];
        assert seen + tags[..j + 1] == (seen + tags[..j]) + [tag];
        counts := counts[tag := CountOf(counts, tag) + 1];
        j := j + 1;
      }
      assert arts[..i + 1][..i] == arts[..i];
      assert tags[..|tags|] == tags;
      i := i + 1;
    }
    assert arts[..|arts|] == arts;
  }

  /** The comparator of `sortedTags` as a "goes before" relation: the higher
      count first, and between equal counts the smaller string first. */
  function Ranking(counts: map<string, nat>): (string, string) -> bool {
    (a: string, b: string) =>
      CountOf(counts, a) > CountOf(counts, b) ||
      (CountOf(counts, a) == CountOf(counts, b) && StrLt(a, b))
  }

  lemma RankingOrder(counts: map<string, nat>)
    ensures StrictWeakOrder(Ranking(counts))
  {
    AscendingOrder();
    var lt := Ranking(counts);
    forall a: string
      ensures !lt(a, a)
    {
      StrLtIrreflexive(a);
    }
    forall a: string, b: string, c: string | lt(a, b) && lt(b, c)
      ensures lt(a, c)
    {
      assert Ascending()(a, b) && Ascending()(b, c) ==> Ascending()(a, c);
    }
    forall a: string, b: string, c: string | lt(a, c)
      ensures lt(a, b) || lt(b, c)
    {
      assert Ascending()(a, c) ==> Ascending()(a, b) || Ascending()(b, c);
    }
  }

  /** Two different tags are never tied: the ranking decides every pair. */
  lemma RankingTotal(counts: map<string, nat>, a: string, b: string)
    requires a != b
    ensures Ranking(counts)(a, b) || Ranking(counts)(b, a)
  {
    StrLtTotal(a, b);
  }

  /** `sortedTags`: a copy of the tag list sorted by the ranking. */
  function SortedTags(allTags: seq<string>, counts: map<string, nat>): (r: seq<string>)
    ensures multiset(r) == multiset(allTags)
    ensures SortedBy(r, Ranking(counts))
  {
    RankingOrder(counts);
    SortBySorted(allTags, Ranking(counts));
    SortBy(allTags, Ranking(counts))
  }

  /** On a list without repeats, such as `allTags`, every earlier tag has a
      higher count, or the same count and a smaller string. */
  lemma SortedTagsRanked(allTags: seq<string>, counts: map<string, nat>)
    requires Distinct(allTags)
    ensures forall i, j :: 0 <= i < j < |SortedTags(allTags, counts)| ==>
      var r := SortedTags(allTags, counts);
      CountOf(counts, r[i]) > CountOf(counts, r[j]) ||
      (CountOf(counts, r[i]) == CountOf(counts, r[j]) && StrLt(r[i], r[j]))
  {
    var r := SortedTags(allTags, counts);
    DistinctPermutation(allTags, r);
    forall i, j | 0 <= i < j < |r|
      ensures Ranking(counts)(r[i], r[j])
    {
      RankingTotal(counts, r[i], r[j]);
    }
  }

  /** The ranked order is the only one: any arrangement of the same tags that
      is ordered by the ranking is `sortedTags`. */
  lemma SortedTagsUnique(allTags: seq<string>, counts: map<string, nat>, r: seq<string>)
    requires multiset(r) == multiset(allTags)
    requires SortedBy(r, Ranking(counts))
    ensures r == SortedTags(allTags, counts)
  {
    var lt := Ranking(counts);
    RankingOrder(counts);
    forall x
      ensures Class(r, lt, x) == Class(allTags, lt, x)
    {
      SameTiesClass(r, allTags, counts, x);
    }
    StableSortUnique(allTags, r, lt);
  }

  /** Under the ranking a tag is tied only with itself, so its class in a list
      is its own copies, which a rearrangement does not change. */
  lemma SameTiesClass(a: seq<string>, b: seq<string>, counts: map<string, nat>, x: string)
    requires multiset(a) == multiset(b)
    ensures Class(a, Ranking(counts), x) == Class(b, Ranking(counts), x)
  {
    var lt := Ranking(counts);
    forall y ensures Tied(lt, x, y) == (y == x) {
      StrLtIrreflexive(x);
      if y != x {
        RankingTotal(counts, x, y);
      }
    }
    var ca := Class(a, lt, x);
    var cb := Class(b, lt, x);
    CopiesCount(a, y => Tied(lt, x, y), x);
    CopiesCount(b, y => Tied(lt, x, y), x);
    assert |ca| == |cb|;
    forall i | 0 <= i < |ca|
      ensures ca[i] == cb[i]
    {
      assert ca[i] in ca && cb[i] in cb;
    }
  }

  /** The picker's search test: `tag.toLowerCase().includes(term.toLowerCase())`. */
  predicate TagMatches(term: string, t: string) {
    Contains(Lower(t), Lower(term))
  }

  /** `filteredTags`: the listed tags whose lower-cased form contains the
      lower-cased search text, in ranked order. */
  function FilteredTags(sorted: seq<string>, term: string): (r: seq<string>)
    ensures forall t :: t in r <==> t in sorted && Occurs(Lower(t), Lower(term))
    ensures IsSubseq(r, sorted)
    ensures forall t :: multiset(r)[t] == if Occurs(Lower(t), Lower(term)) then multiset(sorted)[t] else 0
  {
    forall t ensures TagMatches(term, t) <==> Occurs(Lower(t), Lower(term)) {
      ContainsIff(Lower(t), Lower(term));
    }
    FilterIsSubseq(sorted, t => TagMatches(term, t));
    FilterMultiset(sorted, t => TagMatches(term, t));
    Filter(sorted, t => TagMatches(term, t))
  }

  /** An empty search text keeps every tag. */
  lemma FilteredTagsEmptyTerm(sorted: seq<string>)
    ensures FilteredTags(sorted, "") == sorted
  {
    assert Lower("") == "";
    forall t | t in sorted
      ensures TagMatches("", t)
    {
      ContainsEmpty(Lower(t));
    }
    FilterKeepsAll(sorted, t => TagMatches("", t));
  }

  /** The picker is expanded when "Show all" was pressed or something is typed. */
  predicate Expanded(showAll: bool, term: string) {
    showAll || term != ""
  }

  /** `visibleTags`: all the filtered tags when expanded, otherwise the first
      `PageSize` of them (all of them if there are fewer). */
  function VisibleTags(filtered: seq<string>, showAll: bool, term: string): (r: seq<string>)
    ensures r <= filtered
    ensures Expanded(showAll, term) ==> |r| == |filtered|
    ensures !Expanded(showAll, term) ==> |r| == if |filtered| < PageSize then |filtered| else PageSize
  {
    if Expanded(showAll, term) then filtered
    else if |filtered| < PageSize then filtered
    else filtered[..PageSize]
  }

  /** The condition under which the "Show all N tags" button is drawn. */
  predicate ShowMore(filtered: seq<string>, showAll: bool, term: string) {
    !showAll && term == "" && |filtered| > PageSize
  }

  /** The button appears exactly when some filtered tag is not shown. */
  lemma ShowMoreIffHidden(filtered: seq<string>, showAll: bool, term: string)
    ensures ShowMore(filtered, showAll, term) <==> |VisibleTags(filtered, showAll, term)| < |filtered|
  {
  }

  /** `toggleTag`: a selected tag is dropped (every copy of it), an unselected
      one is appended at the end. */
  function ToggleTag(selected: seq<string>, tag: string): (r: seq<string>)
    ensures tag in r <==> tag !in selected
    ensures forall u :: u != tag ==> (u in r <==> u in selected)
    ensures tag in selected ==> IsSubseq(r, selected)
    ensures tag in selected ==>
      forall u :: multiset(r)[u] == if u == tag then 0 else multiset(selected)[u]
    ensures tag !in selected ==> |r| == |selected| + 1 && r[..|selected|] == selected
  {
    if tag in selected then RemoveTag(selected, tag) else selected + [tag]
  }

  /** `removeTag`: every copy of the tag leaves the selection, the other tags
      keep their order. */
  function RemoveTag(selected: seq<string>, tag: string): (r: seq<string>)
    ensures tag !in r
    ensures forall u :: u != tag ==> (u in r <==> u in selected)
    ensures IsSubseq(r, selected)
    ensures forall u :: multiset(r)[u] == if u == tag then 0 else multiset(selected)[u]
  {
    Remove(selected, tag)
  }

  /** A selection without repeats keeps none after a toggle, so every chip
      has its own `key`. */
  lemma ToggleKeepsDistinct(selected: seq<string>, tag: string)
    requires Distinct(selected)
    ensures Distinct(ToggleTag(selected, tag))
  {
    if tag in selected {
      RemoveDistinct(selected, tag);
    }
  }

  /** A selection without repeats keeps none after a removal. */
  lemma RemoveTagKeepsDistinct(selected: seq<string>, tag: string)
    requires Distinct(selected)
    ensures Distinct(RemoveTag(selected, tag))
  {
    RemoveDistinct(selected, tag);
  }

  /** Ticking and then unticking a tag gives back the selection it started from. */
  lemma ToggleTwiceRestores(selected: seq<string>, tag: string)
    requires tag !in selected
    ensures ToggleTag(ToggleTag(selected, tag), tag) == selected
  {
    RemoveAppend(selected, [tag], tag);
    RemoveAbsent(selected, tag);
    assert Remove([tag], tag) == [];
  }

  /** Removing a tag twice is removing it once. */
  lemma RemoveTagIdempotent(selected: seq<string>, tag: string)
    ensures RemoveTag(RemoveTag(selected, tag), tag) == RemoveTag(selected, tag)
  {
    RemoveIdempotent(selected, tag);
  }

  /** The picker's removal and the chip row's removal in src/App.jsx agree. */
  lemma RemoveTagMatchesChip(q: Query, tag: string)
    ensures RemoveChip(q, tag).tags == RemoveTag(q.tags, tag)
  {
  }
}

=== FILE: wrappers.dfy ===
/** Failure-carrying values used where the modelled code can fail. */
module Wrappers {

  /** A value that may be absent (JavaScript `undefined`, or a decode that failed). */
  datatype Option<T> = None | Some(value: T)

  /** The outcome of a step that either produces a value or reports an error. */
  datatype Result<T, E> = Success(value: T) | Failure(error: E)
}
